=== FILE: README.md ===
# webcl-kernelcontext: the reduction driver and the context bookkeeping

This project models the host-side core of a small WebCL helper library in
Dafny. The library has two parts.

- `kernelutils.js` generates a tree-reduction OpenCL kernel from a text
  template. `reductionKernel` fills the template's `$N`, `$TYPE`, `$OP` and
  `$BASE`, rounds the vector length up to a multiple of the work-group size,
  and launches pass after pass. Each pass writes one partial result per
  work-group into a result buffer, and the answer is element 0 of that
  buffer. `reduce` sends a vector to the device and calls the generated
  function on it.
- `kernelcontext.js`, and its older near-copy `tmcl.js`, hold the context
  object:
  - the eight tagged scalar wrappers (`Char` … `Uint8`);
  - the tag → WebCL type table `webClType`;
  - the byte-size function `bytes`;
  - the kernel call wrapper, which normalises the work sizes and binds
    arguments to slots;
  - `toGPU`/`fromGPU` with their append-only registry `onGPU`.

The device is an abstract store from buffer handles to buffers
(`DeviceStore`). A kernel launch reads its input buffer, runs every work-group,
and stores the partial results (`Reduction.Launch`). One work-group is
modelled one barrier-separated step at a time: the load with `$BASE`
padding, then the halving steps for offset = 1, 2, 4, … (`TreeReduce`).
Section 6.11.8 of the OpenCL 1.1 specification makes each step a whole-array
update. Elements are integers. The operator that the text `$OP` denotes is
a parameter `op: (int, int) -> int`.

Modules:

| module | file | contents |
|---|---|---|
| `Common` | common.dfy | `Option`, `Result` and the error kinds |
| `Types` | types.dfy | array kinds and widths, `bytes` for both copies, scalar wrappers, the WebCL type table |
| `DeviceStore` | device.dfy | buffer creation, reads and kernel writes |
| `Context` | context.dfy | `toGPU`, `fromGPU` and the `onGPU` registry; the kernel call wrapper |
| `Template` | template.dfy | the reduce template as literal pieces and placeholders, global replacement, `type` |
| `TreeReduce` | tree.dfy | the bitmask test, the load step, the halving steps, and the fold they compute |
| `Reduction` | reduction.dfy | round-up arithmetic, launches, the pass loop, `reductionKernel`, `reduce`, and the corrected driver |

The code does not check its inputs. The model records what follows from
that:

- An empty vector fails when it is sent, because the buffer would have zero
  bytes (`DeviceStore.Upload`).
- A work-group size that is not a power of two makes the halving steps read
  past `scratch`: with six work-items, slot 4 reads slot 6
  (`TreeReduce.SixWideReadsPastScratch`).
- The template's comment (kernelutils.js:2-4) says a short last group is
  padded with `$BASE`. The driver passes the rounded length to the kernel,
  so the padding branch is never taken and such a call reads past the end of
  the input (see Findings).
- `fromGPU` with no `result` and no matching registry entry goes on with
  `result` undefined. The model reports `UnknownBuffer` there.

## Model

| member | source | states |
|---|---|---|
| Types.Bytes | kernelcontext.js:116-125 | In `kernelcontext.js`, the size is the element count times the kind's width (8, 4, 2 or 1 bytes). In the older copy it is defined exactly for the six integer kinds, and wherever it is defined it is that same product. |
| Types.BytesCopiesAgree | tmcl.js:117-124 | The two copies of `bytes` agree on every integer kind; on `Float32Array` and `Float64Array` only the older copy is undefined. |
| Types.Wrap | kernelcontext.js:13-40 | Each of the eight wrappers yields a number whose `valueOf()` is the given value, whose tag is the wrapper's own name, and whose tag has an entry in the WebCL type table. |
| Types.TableKeysAreWrapperNames | kernelcontext.js:134-148 | A tag has an entry in the `webClType` table exactly when it is one of the eight wrapper names. The table in tmcl.js:133-147 is the same. |
| Types.TableInjective | kernelcontext.js:136-145 | Different wrappers map to different WebCL types. |
| Types.WrapperNamesDistinct | kernelcontext.js:33-40 | The eight wrappers tag with pairwise different names. |
| DeviceStore.Upload | kernelcontext.js:208-210 | Creating a buffer and writing data into it succeeds exactly when the data is non-empty. It adds one buffer of the given byte size holding the data, under a handle not used before. |
| DeviceStore.Read | kernelcontext.js:191-193 | A read succeeds exactly when the size is defined, the handle is known, the kinds match and the destination is no longer than the buffer. It returns the destination's kind, filled with the buffer's leading elements. |
| DeviceStore.Store | kernelutils.js:23-24 | A kernel's writes to a known buffer replace its first elements and keep the rest. Every other buffer is unchanged, and writing past the end fails. |
| Context.ToGPU | kernelcontext.js:206-219 | `toGPU` succeeds exactly when `bytes(data)` is defined and the data is non-empty. It then appends exactly one `{data, handle}` entry for the returned new handle, keeps every earlier entry, and creates the buffer with `bytes(data)` bytes holding the data. The same holds for tmcl.js:205-218 with its own `bytes`, so there `toGPU` on a float array fails. |
| Context.LastMatch | kernelcontext.js:185-188 | The registry scan finds nothing exactly when no entry has the handle. Otherwise it finds an entry with the handle after which no entry has it, so the last match wins. |
| Context.ReadBack | kernelcontext.js:183-196 | With no result and no matching entry, `fromGPU` fails with `UnknownBuffer`. Otherwise the destination is the supplied result or, without one, a fresh array of the matching entry's kind and length (kernelcontext.js:188). The read succeeds exactly when `bytes` sizes the destination, the buffer exists, its kind is the destination's and it is at least as long. The array returned has the destination's kind and length and holds the buffer's leading elements. |
| Context.ScanRegistry | kernelcontext.js:186-188 | The forward loop over the registry finds the last matching entry. |
| Context.FromGPU | kernelcontext.js:183-196 | The method form of `fromGPU`, with the registry scan as a loop, computes `ReadBack`. tmcl.js:182-195 is the same code with its own `bytes`. |
| Context.RoundTrip | kernelcontext.js:183-219 | `fromGPU` without a result, right after `toGPU(data)`, returns `data`. |
| Context.ToGPUKeepsValid | kernelcontext.js:206-219 | On a context whose registry handles all name device buffers, `toGPU` keeps that so: the old handles keep their buffers and the new handle names the buffer just created. An empty registry has the property, so every context built by `toGPU` calls has it. |
| Context.ToGPUKeepsReadBack | kernelcontext.js:206-219 | On any context, every readback that worked before a later `toGPU` returns the same array after it. |
| Context.SuppliedResultIgnoresRegistry | kernelcontext.js:183-192 | With `result` supplied, `fromGPU` gives the same outcome whatever the registry holds. |
| Context.WebClTypeOf | kernelcontext.js:134-148 | An argument has a WebCL type exactly when it is a wrapped number whose tag is one of the eight wrapper names. That type is the table's entry for the tag. |
| Context.Marshal | kernelcontext.js:69-75 | An argument is bound with a type exactly when it is a wrapped number whose tag is in the table; it is then bound as its `valueOf()` with the table's type. Any other argument is bound as given. |
| Context.Call | kernelcontext.js:58-79 | A bare work size becomes a one-element list and a list is kept. The work dimension is the length of the `global` list. Argument i goes to slot i, as `(valueOf(), type)` exactly when `webClType` has an entry for it, and as given otherwise. tmcl.js:58-79 is the same code. |
| Context.MarshalScalars | kernelcontext.js:69-75 | A wrapped scalar is bound with its value and its wrapper's WebCL type. A buffer handle or a raw number is passed as it is. |
| Template.ReplaceAllPlain | kernelutils.js:71-72 | A global replacement of a `$`-token passes text without `$` through unchanged. |
| Template.ReplaceAllHit | kernelutils.js:71-72 | A global replacement turns an occurrence of its token into the replacement text and goes on after it. |
| Template.ReplaceAllMiss | kernelutils.js:71-72 | A global replacement of one placeholder's token passes another placeholder's token through unchanged. |
| Template.ReplaceAllRender | kernelutils.js:71-72 | In a template whose literal text has no `$`, replacing every occurrence of a placeholder's token is the same as filling that placeholder's holes. |
| Template.FilledLiteralsOnly | kernelutils.js:71-72 | After `$N`, `$TYPE`, `$OP` and `$BASE` are filled, no placeholder is left. |
| Template.ChainedReplacementsFill | kernelutils.js:70-72 | When the type name and operator text hold no `$`, the four chained global replacements put each value exactly where its placeholder stood, and leave no `$`. |
| Template.Instantiate | kernelutils.js:70-72 | The kernel source, for a type name and operator text without `$`, is the template with every placeholder filled by its value, and it holds no `$`. |
| Template.ReducePiecesWellFormed | kernelutils.js:5-25 | The template's only `$` are its placeholders. |
| Template.NatToString | kernelutils.js:71 | The decimal text of the work-group size is a non-empty string of digits that denotes that size, with no leading zero. |
| Template.IntToString | kernelutils.js:72 | The text that replaces `$BASE` is the decimal text of the base: digits denoting it, with no leading zero, after a minus sign when it is negative. |
| Template.ClType | kernelutils.js:41-50 | `type` gives `double` for `Float64Array`, `float` for `Float32Array` and `unsigned int` for every other kind. It never gives `int`. |
| Template.ClTypeWidthMismatch | kernelutils.js:41-50 | The OpenCL type that `type` names is wider than the array's elements exactly for the 8- and 16-bit kinds. |
| Template.ClTypeIntended | kernelutils.js:41-50 | The corrected mapping names a type of the array's own element width: `double`, `float`, `int`, `short`, `char` and their unsigned forms. A signed name goes exactly to a signed kind. |
| Template.ClTypeDiffersOnSignedKinds | kernelutils.js:46-49 | The code and the corrected mapping disagree on signedness exactly for the signed kinds. They name the same type exactly for `Float64Array`, `Float32Array` and `Uint32Array`. |
| TreeReduce.MaskIsModulo | kernelutils.js:15-16 | For a power-of-two m, `i & (m - 1)` is `i % m`. |
| TreeReduce.ActiveIsMultiple | kernelutils.js:15-16 | A slot takes part in the step at a power-of-two offset exactly when its index is a multiple of twice the offset. |
| TreeReduce.ActiveReadsInScratch | kernelutils.js:16-18 | In a power-of-two work-group, every slot that takes part reads `local_index + offset` inside `scratch`. |
| TreeReduce.Step | kernelutils.js:16-21 | A step succeeds exactly when every active slot's partner is inside `scratch`. Each active slot becomes `op` of itself and its partner, and every other slot is kept. |
| TreeReduce.StepDoubles | kernelutils.js:14-22 | If every multiple of o holds the fold of the o values from it, then after the step at offset o every multiple of 2·o holds the fold of the 2·o values from it. |
| TreeReduce.StepsFold | kernelutils.js:14-22 | The remaining halving steps succeed, and slot 0 ends with the fold of the whole group. |
| TreeReduce.Steps | kernelutils.js:14-22 | The halving loop, from a given offset while it is below the group size, keeps the length of `scratch` when every step succeeds. What it computes is stated by `TreeReduce.StepsFold` and `TreeReduce.HalvingFolds`. |
| TreeReduce.HalvingFolds | kernelutils.js:14-22 | For a power-of-two group and an associative operator, `Steps` from offset 1 succeeds and leaves the left-to-right fold of `scratch` in slot 0. |
| TreeReduce.Tree | kernelutils.js:14-24 | For a power-of-two group and an associative operator, work-item 0 writes the left-to-right fold of the loaded scratch array. |
| TreeReduce.SixWideReadsPastScratch | kernelutils.js:14-18 | With six work-items, the offset-2 step makes slot 4 read slot 6, past `scratch`. |
| TreeReduce.Load | kernelutils.js:9-12 | The load succeeds exactly when the group's in-range part lies inside the buffer. Slot i then holds `buffer[g·N + i]` below `length` and `$BASE` from there on. |
| TreeReduce.LoadPadded | kernelutils.js:9-12 | The group that straddles `length` loads its in-range elements followed by copies of the base. |
| TreeReduce.GroupIsFold | kernelutils.js:9-24 | `GroupValue`, what group g writes to `result[g]` (its load followed by the halving loop), is the fold of the group's in-range elements for a power-of-two group that starts below `length`. This holds when the base is an identity of the operator or the group is full. |
| Reduction.CeilDiv | kernelutils.js:84 | `Math.ceil(n / d)` is the least q with q·d ≥ n. |
| Reduction.RoundUp | kernelutils.js:78-80 | The rounded length is a multiple of the work-group size, is at least the length and less than length + local, and equals the length when that is already a multiple. |
| Reduction.GlobalIsRoundedLength | kernelutils.js:90-93 | For a rounded length n, the global size `ceil(n / local)·local` is n itself. Every work-item's index is therefore below the `length` it is passed. |
| Reduction.Launch | kernelutils.js:9-24 | A launch succeeds exactly when both buffers exist, the output has a slot for each group and every group's value exists. Output element g then holds what group g writes, the output's later elements, its kind and length are kept, and every other buffer is unchanged. |
| Reduction.Partials | kernelutils.js:23-24 | A launch's partial results exist exactly when every group's value does. Partial g is what group g writes. |
| Reduction.Execute | kernelutils.js:90-93 | A kernel call succeeds only with one work dimension, the kernel's own work-group size, a positive global size that is a multiple of it, and three arguments with the length bound as a `uint`. Section 5.8 of the OpenCL 1.1 specification makes a global size that is not a multiple of the local one an error. |
| Reduction.PassCall | kernelutils.js:90-93 | The kernel call of a pass is a one-dimensional dispatch with the given global size and the kernel's local size. It binds the input buffer, the length wrapped as `Uint32` (a `uint`) and the output buffer to slots 0, 1 and 2. |
| Reduction.PassLaunch | kernelutils.js:90-93 | A pass's kernel call that goes through runs at least one group, and it is the launch of `ceil(n / local)` groups over the input with length n. |
| Reduction.PassCallLaunches | kernelutils.js:90-93 | The kernel call of a pass binds the input, the length as a `uint` and the output to slots 0 to 2. It runs `global / local` groups of the kernel's size. |
| Reduction.ReductionKernel | kernelutils.js:61-72 | The base defaults to 0 and the work-group size to 32. The type name substituted is `type(t)`. |
| Reduction.ResultBuffer | kernelutils.js:82-86 | A supplied result buffer is used as it is. Without one, the call succeeds exactly when there is at least one group and `bytes` sizes the kind. It then appends one registry entry, an array of `ceil(n / local)` zeros of the kernel's kind, under a new handle whose buffer holds those zeros. |
| Reduction.NextLength | kernelutils.js:96-98 | The next pass's length is a multiple of `local`, at least the number of groups just run and less than that number plus `local`. |
| Reduction.Passes | kernelutils.js:88-103 | The passes start at n. Each later pass is launched with the re-rounded group count of the one before. The loop test holds after every pass but the last and fails after the last. A second pass needs n > local². When the loop succeeds, its first kernel call went through, the input buffer existed, and only the output buffer changed: it keeps its kind and length, and every other buffer, the vector's included, is unchanged. |
| Reduction.PassesUnfold | kernelutils.js:88-103 | One round of the loop: a failed kernel call fails the loop. Otherwise, when the loop test holds, the remaining passes run on a shorter length with the result buffer as both input and output (`vector_d = result_d`, line 101). When it fails, the loop ends after this pass. |
| Reduction.LoopTraceShrinks | kernelutils.js:95-103 | For a work-group size that ends the loop, the pass lengths strictly decrease. There is one pass exactly when the loop test fails after the first. |
| Reduction.UnitGroupRepeats | kernelutils.js:95-103 | With a work-group size of 1, the next length of any length from 2 on is that same length and the loop test holds again, so the loop never ends. |
| Reduction.AgainIffManyGroups | kernelutils.js:95-103 | The loop goes round again exactly when the pass just made had more than `local` groups. |
| Reduction.NextLengthShrinks | kernelutils.js:95-103 | With a work-group size of at least two, the length shrinks on every re-entry, so the loop ends. |
| Reduction.RunPasses | kernelutils.js:88-103 | The do-while loop, as a method, computes `Passes`. |
| Reduction.Invocation | kernelutils.js:76-109 | The returned function keeps the registry when a result buffer is given. Without one, it appends exactly one entry, an array of `ceil(n / local)` zeros of the kernel's kind, and a buffer for it. Its pass lengths are a loop trace that starts at the rounded length. The answer is element 0 of the result buffer (the given one, or the new one) after the last pass, and every other buffer that existed before is unchanged. |
| Reduction.Reduce | kernelutils.js:120-124 | `reduce` succeeds only for a non-empty vector that `bytes` can size. It appends two registry entries, the vector first. Its pass lengths are a loop trace. The answer is element 0 of the second new buffer after the last pass. The buffers that existed before are unchanged, and so is the vector's buffer. |
| Reduction.LaunchFolds | kernelutils.js:9-24 | A launch of `ceil(length / N)` power-of-two groups with an associative operator writes the fold of each group's elements to the first elements of the output. It keeps the output's length and leaves every other buffer unchanged. |
| Reduction.FoldOfChunks | kernelutils.js:2-4 | Folding the partial results, in order, folds the whole range. |
| Reduction.InvocationOnePass | kernelutils.js:88-108 | On a length that is a whole number of groups, from `local` up to `local²`, there is exactly one pass. The answer read back is the fold of the first group alone. |
| Reduction.ReduceFirstGroupOnly | kernelutils.js:95-103 | `reduce` on a vector of `local` to `local²` elements, a whole number of groups, answers with the fold of its first `local` elements, after one pass. |
| Reduction.FourOnesSumToTwo | kernelutils.js:95-108 | Summing four ones with a work-group of two answers 2, while the sum is 4. |
| Reduction.InvocationReadsRoundedLength | kernelutils.js:78-93 | If the input buffer is shorter than the rounded length, the call fails: the last group loads past the buffer's end. |
| Reduction.LaunchPastEnd | kernelutils.js:9-10 | A launch over a whole number of groups of n elements fails when its input holds fewer than n. |
| Reduction.ReduceNeedsWholeGroups | kernelutils.js:120-124 | `reduce` succeeds only on a vector whose length is a multiple of the work-group size. This is necessary, not sufficient: see `Reduction.ReduceSecondPassOverruns`. |
| Reduction.SecondPassOverruns | kernelutils.js:95-101 | When the first pass leaves more than `local` groups and the result buffer is shorter than the next rounded length, the loop fails: its second pass loads past the end of the result buffer. |
| Reduction.ReduceSecondPassOverruns | kernelutils.js:82-101 | `reduce` fails whenever its first pass runs more than `local` groups and their number is not a multiple of `local`. Its result buffer holds one element per group, and the second pass reads up to the rounded count. |
| Reduction.TwentyOnesFail | kernelutils.js:82-101 | `reduce` of twenty ones with a work-group of four fails, although 20 is a whole number of groups. |
| Reduction.PassesIntended | kernelutils.js:88-103 | The corrected loop: the first pass is launched with the number of elements present, and each later one with the number of groups of the pass before. The loop goes on after every pass that ran more than one group and stops after the first that ran one. |
| Reduction.ReductionKernelIntended | kernelutils.js:61-72 | The corrected kernel substitutes the width-correct type name and keeps the defaults. |
| Reduction.InvocationIntended | kernelutils.js:76-109 | The corrected call's first pass is launched with the unrounded length. It appends exactly one registry entry and keeps the earlier ones. |
| Reduction.ReduceIntended | kernelutils.js:120-124 | The corrected `reduce` succeeds only for a non-empty vector that `bytes` can size and a work-group size that ends the loop. It appends two registry entries, the vector first, and its first pass is launched with the vector's length. |
| Reduction.PassesIntendedFold | kernelutils.js:88-103 | With a power-of-two group, an associative operator and an identity base, the corrected passes leave the fold of the first m input elements in output element 0. |
| Reduction.InvocationIntendedIsFold | kernelutils.js:76-108 | The corrected call answers with the fold of the first m elements of the input buffer. |
| Reduction.ReduceIntendedIsFold | kernelutils.js:120-124 | For every non-empty vector the context can size, with a power-of-two group, an associative operator and an identity base, the corrected `reduce` answers with the fold of the whole vector. With a work-group size of 1 and a longer vector it fails with `BadWorkSize` instead of looping. |

## Left out

- WebCL setup and the platform, context and queue objects are not modelled (kernelcontext.js:87-107, tmcl.js:87-108). They are calls into a foreign API. The older copy's `alert` and `return false` on a missing WebCL are not modelled either.
- `compile` and its build-failure logging are not modelled (kernelcontext.js:157-173). The outcome depends on the device compiler. A kernel is modelled by the semantics of the template: `Reduction.Execute` and `TreeReduce`.
- Work-items do not race in the model. A launch reads its whole input before it writes. Passes after the first read and write the same buffer, and reading first is what in-order group execution gives, because group g reads only indices from g·N on.
- Reads past the end of a buffer or of `scratch`, and writes past the end of a buffer, get no semantics. They are `ReadPastEnd`, `ScratchPastEnd` and `WritePastEnd` failures rather than garbage values or corrupted memory.
- Context.Call: the call wrapper wraps a bare `global` or `local` into a one-element list, but does not write the lists back into the caller's `params` object (kernelcontext.js:62-65). The model is pure and has no caller object to mutate.
- Element values are unbounded integers. Floating point, the integer width of each array kind and the wrap-around of `unsigned int` arithmetic are not modelled.
- Byte reinterpretation is not modelled. A read needs the buffer's and the destination's kinds to agree, and a buffer holds elements, not bytes. The as-written kernel's 4-byte `unsigned int` over an 8- or 16-bit array is recorded under Findings (`Template.ClTypeWidthMismatch`). The results stated for the as-written driver on those kinds hold only under this element-wise abstraction.
- `Template.ReplaceAll` carries no contract of its own. What a global replacement does is stated by `Template.ReplaceAllPlain`, `Template.ReplaceAllHit`, `Template.ReplaceAllMiss` and `Template.ReplaceAllRender`.
- The special `$` patterns of JavaScript's `String.replace` are not modelled; replacement text is taken literally. The source properties assume operator texts without `$`.
- The registry is a sequence. Lookups of keys such as `toString`, which JavaScript inherits into the object literal in `webClType`, are not modelled.
- The WebCL type constants are distinct enumeration values, and are assumed to be truthy.
- `Reduction.Passes`: a work-group size of 1 with a longer vector never finishes in the source (see Findings, `Reduction.UnitGroupRepeats`). A size of 0 makes every length `NaN`. `Reduction.Passes` and its callers therefore require `local >= 2`, or `local == 1` with at most one element, and a positive size.
- `mapKernel` and `map` are not defined in the files modelled and are not part of this model.

## Findings

| source | as written | input that shows it | evidently intended | confidence | as-written member | corrected member |
|---|---|---|---|---|---|---|
| kernelutils.js:46-49 | The third test is `t == Uint32Array \|\| t == Uint16Array \|\| Uint8Array`, and the bare constructor is always truthy, so every integer kind is named `unsigned int` | `Int32Array` gets `unsigned int` | `t == Uint8Array`, so the signed kinds are named by a signed type | high, not executed | Template.ClType | Template.ClTypeIntended (Template.ClTypeDiffersOnSignedKinds) |
| kernelutils.js:41-50 | Every integer kind is named the 4-byte `unsigned int`, so the kernel's `buffer` of `$TYPE` (kernelutils.js:5-6) has wider elements than an 8- or 16-bit array | `reduce` of a `Uint8Array` of 4 elements with `local` 4: the kernel reads `unsigned int` elements 0 to 3 from a 4-byte buffer, so elements 1 to 3 lie past its end | A type of the array's element width: `unsigned char`, `short` and so on | medium, not executed | Template.ClTypeWidthMismatch | Template.ClTypeIntended (Reduction.ReductionKernelIntended) |
| kernelutils.js:78-93 | Each pass is launched with the rounded length n as the kernel's `length`. The kernel's padding branch is dead, and the last group loads up to n past the end of a shorter input | `Uint32Array` of 3 elements, `local` 32: group 0 loads indices 3 to 31 of a 3-element buffer | Pass the unrounded length and size the launch by the group count, so the last group pads with `$BASE` | high, not executed | Reduction.InvocationReadsRoundedLength (Reduction.ReduceNeedsWholeGroups) | Reduction.PassesIntended (Reduction.ReduceIntendedIsFold) |
| kernelutils.js:95-103 | The exit test computes the next pass's length and stops when that would fit in one group. It looks one pass ahead, so a pass that leaves between 2 and `local` partial results is never reduced further | `Int32Array` [1, 1, 1, 1], `local` 2, `a + b`: one pass writes [2, 2], and the answer is 2 | Go round again while the pass just made left more than one partial result | high, not executed | Reduction.ReduceFirstGroupOnly (Reduction.FourOnesSumToTwo) | Reduction.PassesIntended (Reduction.ReduceIntendedIsFold) |
| kernelutils.js:95-103 | With `local` 1 the re-rounded length equals the length, so the loop test stays true and the loop never ends | `reduce` of a 2-element vector with `local` 1 | Refuse a work-group size of 1 on a vector of more than one element | medium, not executed | Reduction.UnitGroupRepeats | Reduction.ReduceIntended (Reduction.ReduceIntendedIsFold) |
| kernelutils.js:96-98 | The next length is the group count rounded up to a multiple of `local`, and the next pass loads up to it from the result buffer, which has only `ceil(n / local)` elements | `reduce` of twenty ones with `local` 4: the result buffer has 5 elements, and the second pass loads indices 4 to 7 of it | Launch the next pass with the group count itself, so the last group pads with `$BASE` | high, not executed | Reduction.ReduceSecondPassOverruns (Reduction.TwentyOnesFail) | Reduction.PassesIntended (Reduction.ReduceIntendedIsFold) |
| tmcl.js:117-124 | The older copy's `bytes` has no branch for `Float32Array` or `Float64Array` and returns `undefined` | `toGPU(new Float32Array(3))` creates a buffer with an undefined size | The byte width of every kind, as in kernelcontext.js:116-125 | medium, not executed | Types.Bytes (with `TmclCopy`) | Types.Bytes (with `KernelContextCopy`; Types.BytesCopiesAgree) |

=== FILE: common.dfy ===
/** Shared outcome types: an optional value, and a result that either holds a
    value or says why a host or device call did not complete. */
module Common {

  /** A JavaScript value that may be `undefined`. */
  datatype Option<+T> = None | Some(value: T)

  /** Why an operation stopped. Device calls that OpenCL would reject, and
      reads the kernel would make outside a buffer, end here instead of being
      given a meaning. */
  datatype Error =
    | UndefinedSize      // a byte count came out `undefined`
    | EmptyBuffer        // a device buffer of zero bytes was requested
    | UnknownBuffer      // readback without a destination found no registry entry
    | UnknownHandle      // the handle names no buffer of this device
    | Reinterpretation   // a read into an array of another element kind
    | ReadPastEnd        // a read beyond the elements a buffer holds
    | WritePastEnd       // a write beyond the elements a buffer holds
    | ScratchPastEnd     // a work-item read local memory outside scratch[0..N)
    | BadWorkSize        // global/local work sizes the launch cannot accept
    | BadArguments       // the bound argument slots do not fit the kernel

  datatype Result<+T> = Success(value: T) | Failure(error: Error) {

    predicate IsFailure() {
      Failure?
    }

    function PropagateFailure<U>(): Result<U>
      requires Failure?
    {
      Failure(error)
    }

    function Extract(): T
      requires Success?
    {
      value
    }
  }

  function Min(a: int, b: int): int {
    if a <= b then a else b
  }
}

=== FILE: context.dfy ===
/** The context object: the registry of arrays sent to the device
    (`onGPU`), `toGPU`, `fromGPU`, and the call wrapper that marshals a
    kernel call's work sizes and arguments. */
module Context {
  import opened Common
  import opened Types
  import opened DeviceStore

  /** One registry record `{data, handle}`. */
  datatype Entry = Entry(data: HostArray, handle: Handle)

  /** A context: which copy of the code it runs, the device store, and the
      append-only registry. */
  datatype Context = Context(copy: Copy, device: Device, onGPU: seq<Entry>)

  /** Every registry handle names a device buffer. An empty registry
      satisfies this and `ToGPU` keeps it (`ToGPUKeepsValid`), so every
      context built from an empty one by `ToGPU` satisfies it. */
  ghost predicate Valid(ctx: Context) {
    forall i | 0 <= i < |ctx.onGPU| :: ctx.device.Has(ctx.onGPU[i].handle)
  }

  /** `toGPU(data)`: create a buffer of `bytes(data)` bytes, write `data`
      into it with that same size, record `{data, handle}`, return the
      handle. */
  function ToGPU(ctx: Context, data: HostArray): (r: Result<(Context, Handle)>)
    ensures r.Success? <==> Bytes(ctx.copy, data).Some? && |data.cells| > 0
    ensures r.Success? ==>
      var (c, h) := r.value;
      && c.copy == ctx.copy
      && c.onGPU == ctx.onGPU + [Entry(data, h)]
      && h == |ctx.device.buffers|
      && c.device.buffers == ctx.device.buffers + [DeviceBuffer(|data.cells| * Width(data.kind), data)]
  {
    var size := Bytes(ctx.copy, data);
    if size.None? then Failure(UndefinedSize)
    else
      var up :- Upload(ctx.device, size.value, data);
      Success((Context(ctx.copy, up.0, ctx.onGPU + [Entry(data, up.1)]), up.1))
  }

  /** The registry scan of `fromGPU`: it never stops early, so the data of
      the LAST entry with handle `h` is the one found. */
  function LastMatch(entries: seq<Entry>, h: Handle): (r: Option<HostArray>)
    ensures r.None? <==> forall i | 0 <= i < |entries| :: entries[i].handle != h
    ensures r.Some? ==>
      exists i | 0 <= i < |entries| ::
        && entries[i].handle == h && entries[i].data == r.value
        && forall j | i < j < |entries| :: entries[j].handle != h
  {
    if |entries| == 0 then None
    else
      var last := entries[|entries| - 1];
      if last.handle == h then Some(last.data)
      else LastMatch(entries[..|entries| - 1], h)
  }

  /** `fromGPU(handle, result)`: with `result` omitted, allocate an array of
      the kind and length of the matching registry entry's data (no match
      leaves `result` undefined); then read `bytes(result)` bytes into it. */
  function ReadBack(ctx: Context, h: Handle, result: Option<HostArray>): (r: Result<HostArray>)
    ensures result.None? && LastMatch(ctx.onGPU, h).None? ==> r == Failure(UnknownBuffer)
    ensures result.Some? || LastMatch(ctx.onGPU, h).Some? ==>
      var d := if result.Some? then result.value else LastMatch(ctx.onGPU, h).value;
      && (r.Success? <==>
            && Bytes(ctx.copy, d).Some?
            && ctx.device.Has(h)
            && ctx.device.buffers[h].image.kind == d.kind
            && |d.cells| <= |ctx.device.Cells(h)|)
      && (r.Success? ==> r.value.kind == d.kind && |r.value.cells| == |d.cells|)
    ensures r.Success? ==> r.value.cells == ctx.device.Cells(h)[..|r.value.cells|]
  {
    var dest :-
      if result.Some? then Success(result.value)
      else
        var d := LastMatch(ctx.onGPU, h);
        if d.None? then Failure(UnknownBuffer)
        else Success(Zeros(d.value.kind, |d.value.cells|));
    Read(ctx.device, h, Bytes(ctx.copy, dest), dest)
  }

  /** The forward scan of `fromGPU` over the registry: every entry whose
      handle matches overwrites what an earlier one found. */
  method ScanRegistry(entries: seq<Entry>, h: Handle) returns (found: Option<HostArray>)
    ensures found == LastMatch(entries, h)
  {
    found := None;
    var i := 0;
    while i < |entries|
      invariant 0 <= i <= |entries|
      invariant found == LastMatch(entries[..i], h)
    {
      assert entries[..i + 1][..i] == entries[..i];
      if entries[i].handle == h {
        found := Some(entries[i].data);
      }
      i := i + 1;
    }
    assert entries[..i] == entries;
  }

  /** `fromGPU` as the source writes it. */
  method FromGPU(ctx: Context, h: Handle, result: Option<HostArray>) returns (r: Result<HostArray>)
    ensures r == ReadBack(ctx, h, result)
  {
    var dest := result;
    if result.None? {
      var found := ScanRegistry(ctx.onGPU, h);
      if found.None? {
        return Failure(UnknownBuffer);
      }
      dest := Some(Zeros(found.value.kind, |found.value.cells|));
    }
    r := Read(ctx.device, h, Bytes(ctx.copy, dest.value), dest.value);
  }

  /** Sending `data` and reading its handle back with no launch in between
      gives `data` again. */
  lemma RoundTrip(ctx: Context, data: HostArray)
    requires ToGPU(ctx, data).Success?
    ensures ReadBack(ToGPU(ctx, data).value.0, ToGPU(ctx, data).value.1, None) == Success(data)
  {
    var (c, h) := ToGPU(ctx, data).value;
    assert c.onGPU[|c.onGPU| - 1] == Entry(data, h);
    assert LastMatch(c.onGPU, h) == Some(data);
    assert c.device.Cells(h) == data.cells;
    var dest := Zeros(data.kind, |data.cells|);
    assert Bytes(c.copy, dest) == Bytes(ctx.copy, data);
    assert data.cells[..|dest.cells|] == data.cells;
    assert Read(c.device, h, Bytes(c.copy, dest), dest) == Success(data);
  }

  /** `toGPU` keeps the registry valid: the old handles keep their buffers
      and the new entry's handle names the buffer just created. */
  lemma ToGPUKeepsValid(ctx: Context, data: HostArray)
    requires Valid(ctx)
    requires ToGPU(ctx, data).Success?
    ensures Valid(ToGPU(ctx, data).value.0)
  {
    var (c, h) := ToGPU(ctx, data).value;
    assert c.onGPU[|c.onGPU| - 1].handle == h;
    assert c.device.Has(h);
  }

  /** Every readback that worked before a `toGPU` gives the same result
      after it. */
  lemma ToGPUKeepsReadBack(ctx: Context, data: HostArray, h0: Handle, result: Option<HostArray>)
    requires ToGPU(ctx, data).Success?
    requires ReadBack(ctx, h0, result).Success?
    ensures ReadBack(ToGPU(ctx, data).value.0, h0, result) == ReadBack(ctx, h0, result)
  {
    var (c, h) := ToGPU(ctx, data).value;
    assert ctx.device.Has(h0);
    assert h0 != h;
    assert c.onGPU[..|c.onGPU| - 1] == ctx.onGPU;
    assert LastMatch(c.onGPU, h0) == LastMatch(ctx.onGPU, h0);
    assert c.device.buffers[h0] == ctx.device.buffers[h0];
  }

  /** With `result` supplied, readback does not consult the registry. */
  lemma SuppliedResultIgnoresRegistry(ctx: Context, entries: seq<Entry>, h: Handle, result: HostArray)
    ensures ReadBack(ctx, h, Some(result)) == ReadBack(ctx.(onGPU := entries), h, Some(result))
  {
  }

  /** A work size given as a bare number or as a list of numbers. */
  datatype Dims = Size(size: int) | Sizes(sizes: seq<int>)

  /** The first argument of a kernel call, `{local, global}`. */
  datatype WorkSize = WorkSize(local: Dims, global: Dims)

  /** A kernel-call argument: a tagged scalar, a buffer handle, or a raw
      number. */
  datatype KernelArg = Num(num: Number) | Buffer(handle: Handle) | Plain(value: int)

  /** `webClType(arg)`: the table entry for the argument's `type` tag;
      handles and raw numbers carry no tag. */
  function WebClTypeOf(a: KernelArg): (t: Option<WebClType>)
    ensures t.Some? <==> a.Num? && exists w: Scalar :: w.Name() == a.num.tag
    ensures t.Some? ==> t == ScalarTable(a.num.tag)
  {
    if a.Num? then
      TableKeysAreWrapperNames(a.num.tag);
      ScalarTable(a.num.tag)
    else None
  }

  /** How one argument reaches its slot: `(valueOf(), type)` or as is. */
  datatype Binding = Typed(value: int, clType: WebClType) | Untyped(arg: KernelArg)

  /** One `setKernelArg(slot, ...)` call. */
  datatype SetArg = SetArg(slot: nat, binding: Binding)

  /** What a kernel call hands to the queue: the setKernelArg calls in order
      and the enqueueNDRangeKernel work dimension and sizes. */
  datatype Dispatch = Dispatch(setArgs: seq<SetArg>, workDim: nat, global: seq<int>, local: seq<int>)

  /** The `instanceof Array` test: a bare size becomes a one-element list. */
  function AsList(d: Dims): seq<int> {
    match d
    case Size(v) => [v]
    case Sizes(vs) => vs
  }

  /** The binding of one argument: a tagged scalar goes as its value with
      its wrapper's WebCL type; anything else goes as it is. */
  function Marshal(a: KernelArg): (b: Binding)
    ensures b.Typed? <==> a.Num? && ScalarTable(a.num.tag).Some?
    ensures b.Typed? ==> b.value == a.num.ValueOf() && Some(b.clType) == ScalarTable(a.num.tag)
    ensures b.Untyped? ==> b.arg == a
  {
    match WebClTypeOf(a)
    case Some(t) => Typed(a.num.ValueOf(), t)
    case None => Untyped(a)
  }

  /** Calling a compiled kernel with `params` and the arguments after it. */
  function Call(params: WorkSize, args: seq<KernelArg>): (d: Dispatch)
    ensures d.global == (if params.global.Size? then [params.global.size] else params.global.sizes)
    ensures d.local == (if params.local.Size? then [params.local.size] else params.local.sizes)
    ensures d.workDim == |d.global|
    ensures |d.setArgs| == |args|
    ensures forall i | 0 <= i < |args| ::
      && d.setArgs[i].slot == i
      && (d.setArgs[i].binding.Typed? <==> WebClTypeOf(args[i]).Some?)
      && (d.setArgs[i].binding.Typed? ==>
            d.setArgs[i].binding == Typed(args[i].num.n, WebClTypeOf(args[i]).value))
      && (d.setArgs[i].binding.Untyped? ==> d.setArgs[i].binding.arg == args[i])
  {
    var global := AsList(params.global);
    Dispatch(seq(|args|, i requires 0 <= i < |args| => SetArg(i, Marshal(args[i]))),
             |global|, global, AsList(params.local))
  }

  /** A wrapped scalar is always bound with its wrapper's WebCL type and its
      value; handles and raw numbers are always passed as they are. */
  lemma MarshalScalars(s: Scalar, n: int, h: Handle, v: int)
    ensures Marshal(Num(Wrap(s, n))) == Typed(n, ScalarTable(s.Name()).value)
    ensures Marshal(Buffer(h)) == Untyped(Buffer(h))
    ensures Marshal(Plain(v)) == Untyped(Plain(v))
  {
  }
}

=== FILE: device.dfy ===
/** The compute device as an abstract store from buffer handles to buffers.
    It stands for WebCL's createBuffer, enqueueWriteBuffer and
    enqueueReadBuffer followed by finish; a handle is the index at which the
    buffer was created. */
module DeviceStore {
  import opened Common
  import opened Types

  type Handle = nat

  /** A device buffer: the byte size it was created with, and its contents
      seen as elements of the array kind last written into it. */
  datatype DeviceBuffer = DeviceBuffer(size: nat, image: HostArray)

  datatype Device = Device(buffers: seq<DeviceBuffer>) {

    predicate Has(h: Handle) {
      h < |buffers|
    }

    function Cells(h: Handle): seq<int>
      requires Has(h)
    {
      buffers[h].image.cells
    }
  }

  /** createBuffer(CL_MEM_READ_WRITE, size) and a write of `size` bytes of
      `data` into it. OpenCL 1.1 (section 5.2.1) refuses a buffer of zero
      bytes. */
  function Upload(dev: Device, size: nat, data: HostArray): (r: Result<(Device, Handle)>)
    requires size == |data.cells| * Width(data.kind)
    ensures r.Success? <==> |data.cells| > 0
    ensures r.Success? ==> r.value.1 == |dev.buffers| && !dev.Has(r.value.1)
    ensures r.Success? ==> r.value.0.buffers == dev.buffers + [DeviceBuffer(size, data)]
  {
    if size == 0 then Failure(EmptyBuffer)
    else Success((Device(dev.buffers + [DeviceBuffer(size, data)]), |dev.buffers|))
  }

  /** A blocking read of `size` bytes from buffer `h` into `dest`. The
      result is `dest` with its elements overwritten by the buffer's. */
  function Read(dev: Device, h: Handle, size: Option<nat>, dest: HostArray): (r: Result<HostArray>)
    ensures r.Success? ==> r.value.kind == dest.kind && |r.value.cells| == |dest.cells|
    ensures r.Success? <==>
      size.Some? && dev.Has(h) && dev.buffers[h].image.kind == dest.kind
      && |dest.cells| <= |dev.Cells(h)|
    ensures r.Success? ==> r.value.cells == dev.Cells(h)[..|dest.cells|]
  {
    if size.None? then Failure(UndefinedSize)
    else if !dev.Has(h) then Failure(UnknownHandle)
    else if dev.buffers[h].image.kind != dest.kind then Failure(Reinterpretation)
    else if |dest.cells| > |dev.Cells(h)| then Failure(ReadPastEnd)
    else Success(HostArray(dest.kind, dev.Cells(h)[..|dest.cells|]))
  }

  /** A kernel's writes of `vals` to the first elements of buffer `h`. */
  function Store(dev: Device, h: Handle, vals: seq<int>): (r: Result<Device>)
    ensures r.Success? <==> dev.Has(h) && |vals| <= |dev.Cells(h)|
    ensures r.Success? ==> |r.value.buffers| == |dev.buffers|
    ensures r.Success? ==>
      forall b | 0 <= b < |dev.buffers| && b != h :: r.value.buffers[b] == dev.buffers[b]
    ensures r.Success? ==>
      && r.value.buffers[h].size == dev.buffers[h].size
      && r.value.buffers[h].image.kind == dev.buffers[h].image.kind
      && |r.value.Cells(h)| == |dev.Cells(h)|
      && r.value.Cells(h)[..|vals|] == vals
      && r.value.Cells(h)[|vals|..] == dev.Cells(h)[|vals|..]
  {
    if !dev.Has(h) then Failure(UnknownHandle)
    else if |vals| > |dev.Cells(h)| then Failure(WritePastEnd)
    else
      var buf := dev.buffers[h];
      var image := buf.image.(cells := vals + dev.Cells(h)[|vals|..]);
      Success(Device(dev.buffers[h := buf.(image := image)]))
  }
}

=== FILE: reduction.dfy ===
/** `reductionKernel` and `reduce`: instantiating and compiling the reduce
    template, launching it pass after pass over the device buffers, and
    reading the answer back. Launches are modelled on the device store; the
    operator `$OP` stands for is a parameter `op`. */
module Reduction {
  import opened Common
  import opened Types
  import opened DeviceStore
  import opened Context
  import opened Template
  import opened TreeReduce

  /** `Math.ceil(n / d)`. */
  function CeilDiv(n: nat, d: nat): (q: nat)
    requires d > 0
    ensures d * q >= n && (q > 0 ==> d * (q - 1) < n)
  {
    var q := (n + d - 1) / d;
    assert d * q <= n + d - 1 && n + d - 1 < d * q + d;
    q
  }

  /** `if (n % local != 0) n = n + local - (n % local)`. */
  function RoundUp(n: nat, d: nat): (m: nat)
    requires d > 0
    ensures m % d == 0 && n <= m < n + d
    ensures n % d == 0 ==> m == n
  {
    if n % d != 0 then
      ModUnique(n + d - n % d, d, n / d + 1, 0);
      n + d - n % d
    else n
  }

  /** The compiled `reduce` kernel: the element kind it was built for, the
      element type name and operator text substituted into the template,
      its padding value and the work-group size baked into `scratch[$N]`.
      The program it compiles is `Instantiate(local, typeName, opText, base)`. */
  datatype ReduceKernel = ReduceKernel(kind: ArrayKind, typeName: string, opText: string, base: int, local: nat)

  /** `reductionKernel(t, op, base, local)` up to the compile step: base
      defaults to 0 and local to 32. */
  function ReductionKernel(t: ArrayKind, opText: string, base: Option<int>, local: Option<nat>): (k: ReduceKernel)
    ensures k.kind == t && k.typeName == ClType(t) && k.opText == opText
    ensures k.base == (if base.Some? then base.value else 0)
    ensures k.local == (if local.Some? then local.value else 32)
  {
    var b := if base.Some? then base.value else 0;
    var l := if local.Some? then local.value else 32;
    ReduceKernel(t, ClType(t), opText, b, l)
  }

  /** The values a launch of `groups` work-groups writes, in group order. */
  function Partials(cells: seq<int>, groups: nat, n: nat, length: nat, base: int, op: (int, int) -> int): (r: Result<seq<int>>)
    requires n > 0
    ensures r.Success? <==> forall g | 0 <= g < groups :: GroupValue(cells, g, n, length, base, op).Success?
    ensures r.Success? ==> |r.value| == groups && forall g | 0 <= g < groups ::
      r.value[g] == GroupValue(cells, g, n, length, base, op).value
    decreases groups
  {
    if groups == 0 then Success([])
    else
      var p :- Partials(cells, groups - 1, n, length, base, op);
      var v :- GroupValue(cells, groups - 1, n, length, base, op);
      Success(p + [v])
  }

  /** One launch: every work-group loads from the input buffer as it was
      before the launch, and the partial results are written to the first
      elements of the output buffer. */
  function Launch(dev: Device, input: Handle, length: nat, output: Handle, groups: nat, n: nat, base: int,
                  op: (int, int) -> int): (r: Result<Device>)
    requires n > 0
    ensures r.Success? <==>
      && dev.Has(input) && dev.Has(output) && groups <= |dev.Cells(output)|
      && forall g | 0 <= g < groups :: GroupValue(dev.Cells(input), g, n, length, base, op).Success?
    ensures r.Success? ==>
      && |r.value.buffers| == |dev.buffers|
      && r.value.buffers[output].image.kind == dev.buffers[output].image.kind
      && |r.value.Cells(output)| == |dev.Cells(output)|
      && (forall g | 0 <= g < groups ::
            r.value.Cells(output)[g] == GroupValue(dev.Cells(input), g, n, length, base, op).value)
      && r.value.Cells(output)[groups..] == dev.Cells(output)[groups..]
      && forall b | 0 <= b < |dev.buffers| && b != output :: r.value.buffers[b] == dev.buffers[b]
  {
    if !dev.Has(input) then Failure(UnknownHandle)
    else
      var p :- Partials(dev.Cells(input), groups, n, length, base, op);
      Store(dev, output, p)
  }

  /** The enqueue of a dispatch of the reduce kernel. The work sizes must be
      one-dimensional, the local size must be the one `scratch` was sized
      for, and the global size must be a positive multiple of it (section
      5.8 of the OpenCL 1.1 specification); the arguments must be the
      input buffer, the length as a `uint`, and the result buffer. */
  function Execute(dev: Device, k: ReduceKernel, d: Dispatch, op: (int, int) -> int): (r: Result<Device>)
    requires k.local > 0
    ensures r.Success? ==>
      && d.workDim == 1 && d.local == [k.local as int] && |d.global| == 1
      && d.global[0] > 0 && d.global[0] % k.local == 0
      && |d.setArgs| == 3 && d.setArgs[1].binding.Typed? && d.setArgs[1].binding.clType == UINT
  {
    if d.workDim != 1 || |d.global| != 1 || d.local != [k.local as int] then Failure(BadWorkSize)
    else if d.global[0] <= 0 || d.global[0] % k.local != 0 then Failure(BadWorkSize)
    else if |d.setArgs| != 3 then Failure(BadArguments)
    else
      var a0, a1, a2 := d.setArgs[0].binding, d.setArgs[1].binding, d.setArgs[2].binding;
      if !(a0.Untyped? && a0.arg.Buffer? && a1.Typed? && a1.clType == UINT && a1.value >= 0
           && a2.Untyped? && a2.arg.Buffer?)
      then Failure(BadArguments)
      else Launch(dev, a0.arg.handle, a1.value, a2.arg.handle, d.global[0] / k.local, k.local, k.base, op)
  }

  /** The kernel call of one pass: `kernel({local, global}, input,
      new Uint32(length), output)`. */
  function PassCall(k: ReduceKernel, input: Handle, output: Handle, length: nat, global: nat): (d: Dispatch)
    ensures d.workDim == 1 && d.global == [global as int] && d.local == [k.local as int]
    ensures |d.setArgs| == 3
    ensures d.setArgs[0].binding == Untyped(Buffer(input))
    ensures d.setArgs[1].binding == Typed(length, UINT)
    ensures d.setArgs[2].binding == Untyped(Buffer(output))
  {
    Call(WorkSize(Size(k.local), Size(global)),
         [Buffer(input), Num(Wrap(Uint32, length)), Buffer(output)])
  }

  /** The kernel call of a pass reaches the launch with its arguments in
      place: input, length and output as given, `global / local` groups. */
  lemma PassCallLaunches(dev: Device, k: ReduceKernel, input: Handle, output: Handle, length: nat, groups: nat,
                         op: (int, int) -> int)
    requires k.local > 0 && groups > 0
    ensures Execute(dev, k, PassCall(k, input, output, length, groups * k.local), op)
         == Launch(dev, input, length, output, groups, k.local, k.base, op)
  {
    var global := groups * k.local;
    ModUnique(global, k.local, groups, 0);
    MulLe(k.local, 1, groups);
    DispatchLaunches(dev, k, input, output, length, global, groups, op);
  }

  /** A pass's kernel call that goes through is the launch of
      `ceil(n / local)` groups over the input with length n; with no group
      to run, the call is refused. */
  lemma PassLaunch(dev: Device, k: ReduceKernel, input: Handle, output: Handle, n: nat, op: (int, int) -> int)
    requires k.local > 0
    ensures var e := Execute(dev, k, PassCall(k, input, output, n, CeilDiv(n, k.local) * k.local), op);
      e.Success? ==>
        CeilDiv(n, k.local) > 0 && e == Launch(dev, input, n, output, CeilDiv(n, k.local), k.local, k.base, op)
  {
    if CeilDiv(n, k.local) > 0 {
      PassCallLaunches(dev, k, input, output, n, CeilDiv(n, k.local), op);
    }
  }

  /** `after` differs from `before` at most in the contents of buffer
      `output`, which keeps its kind and length. */
  predicate OnlyWrites(before: Device, after: Device, output: Handle) {
    && before.Has(output)
    && |after.buffers| == |before.buffers|
    && after.buffers[output].image.kind == before.buffers[output].image.kind
    && |after.Cells(output)| == |before.Cells(output)|
    && forall b | 0 <= b < |before.buffers| && b != output :: after.buffers[b] == before.buffers[b]
  }

  /** A launch that goes through writes only its output buffer. */
  lemma LaunchOnlyWrites(dev: Device, input: Handle, length: nat, output: Handle, groups: nat, n: nat, base: int,
                         op: (int, int) -> int)
    requires n > 0 && Launch(dev, input, length, output, groups, n, base, op).Success?
    ensures dev.Has(input) && OnlyWrites(dev, Launch(dev, input, length, output, groups, n, base, op).value, output)
  {
  }

  /** A pass's kernel call that goes through read an existing input and
      wrote only its output. */
  lemma PassOnlyWrites(dev: Device, k: ReduceKernel, input: Handle, output: Handle, n: nat, op: (int, int) -> int)
    requires k.local > 0
    ensures var e := Execute(dev, k, PassCall(k, input, output, n, CeilDiv(n, k.local) * k.local), op);
      e.Success? ==> dev.Has(input) && OnlyWrites(dev, e.value, output)
  {
    PassLaunch(dev, k, input, output, n, op);
    var e := Execute(dev, k, PassCall(k, input, output, n, CeilDiv(n, k.local) * k.local), op);
    if e.Success? {
      LaunchOnlyWrites(dev, input, n, output, CeilDiv(n, k.local), k.local, k.base, op);
    }
  }

  lemma OnlyWritesTrans(a: Device, b: Device, c: Device, output: Handle)
    requires OnlyWrites(a, b, output) && OnlyWrites(b, c, output)
    ensures OnlyWrites(a, c, output)
  {
  }

  /** A global size that is a positive multiple of the group size runs
      `global / local` groups. */
  lemma DispatchLaunches(dev: Device, k: ReduceKernel, input: Handle, output: Handle, length: nat, global: nat,
                         groups: nat, op: (int, int) -> int)
    requires k.local > 0 && global > 0 && global % k.local == 0 && global / k.local == groups
    ensures Execute(dev, k, PassCall(k, input, output, length, global), op)
         == Launch(dev, input, length, output, groups, k.local, k.base, op)
  {
    var d := PassCall(k, input, output, length, global);
    assert d.setArgs[1].binding == Typed(length, UINT);
  }

  /** On a rounded length every launch's global size is the length itself:
      each work-item's global index is below the `length` it is passed, so
      the kernel's padding branch is never taken. */
  lemma GlobalIsRoundedLength(length: nat, local: nat)
    requires local > 0
    ensures var n := RoundUp(length, local);
      CeilDiv(n, local) * local == n
  {
    var n := RoundUp(length, local);
    var G := CeilDiv(n, local);
    if n == 0 {
      if G > 0 {
        MulLe(local, 0, G - 1);
        assert false;
      }
    } else {
      LastGroupEnds(n, local);
      MulSucc(G - 1, local);
    }
  }

  /** The loop runs with a work-group size of at least two, or with a
      length the first pass already finishes: with `local == 1` and a longer
      vector the length never shrinks. */
  predicate Terminates(local: nat, length: nat) {
    local >= 2 || (local == 1 && length <= 1)
  }

  /** The lengths the passes of the do-while loop are launched with: each
      after the first is the re-rounded group count of the one before, the
      loop test holds after every pass but the last, and fails after the
      last. */
  predicate LoopTrace(ls: seq<nat>, local: nat)
    requires local > 0
  {
    && |ls| > 0
    && (forall i | 0 < i < |ls| :: ls[i] == NextLength(ls[i - 1], local))
    && (forall i | 0 <= i < |ls| - 1 :: CeilDiv(NextLength(ls[i], local), local) > 1)
    && CeilDiv(NextLength(ls[|ls| - 1], local), local) <= 1
  }

  /** The lengths of the passes strictly decrease, and there is one pass
      exactly when the loop test fails after the first. */
  lemma LoopTraceShrinks(ls: seq<nat>, local: nat)
    requires local > 0 && LoopTrace(ls, local) && Terminates(local, ls[0])
    ensures forall i | 0 < i < |ls| :: ls[i] < ls[i - 1]
    ensures |ls| == 1 <==> CeilDiv(NextLength(ls[0], local), local) <= 1
  {
    forall i | 0 < i < |ls| ensures ls[i] < ls[i - 1] {
      assert CeilDiv(NextLength(ls[i - 1], local), local) > 1;
      if local == 1 {
        UnitGroupKeeps(ls[0]);
        assert false;
      }
      NextLengthShrinks(ls[i - 1], local);
    }
  }

  /** A pass whose loop test holds, followed by the passes from the next
      length on. */
  lemma LoopTraceCons(n: nat, rest: seq<nat>, local: nat)
    requires local > 0 && LoopTrace(rest, local)
    requires rest[0] == NextLength(n, local) && CeilDiv(NextLength(n, local), local) > 1
    ensures LoopTrace([n] + rest, local)
  {
    var ls := [n] + rest;
    forall i | 0 < i < |ls| ensures ls[i] == NextLength(ls[i - 1], local) {
      if i > 1 {
        assert ls[i] == rest[i - 1] && ls[i - 1] == rest[i - 2];
      }
    }
    forall i | 0 <= i < |ls| - 1 ensures CeilDiv(NextLength(ls[i], local), local) > 1 {
      if i > 0 {
        assert ls[i] == rest[i - 1];
      }
    }
    assert ls[|ls| - 1] == rest[|rest| - 1];
  }

  /** The length the next pass of the do-while loop gets. */
  function NextLength(n: nat, local: nat): (m: nat)
    requires local > 0
    ensures m % local == 0 && CeilDiv(n, local) <= m < CeilDiv(n, local) + local
  {
    RoundUp(CeilDiv(n, local), local)
  }

  /** With a work-group of one, the do-while loop as written goes round
      again on a length of two or more with that same length: it never
      ends. */
  lemma UnitGroupRepeats(n: nat)
    requires n >= 2
    ensures NextLength(n, 1) == n && CeilDiv(NextLength(n, 1), 1) > 1
  {
    UnitGroupKeeps(n);
  }

  lemma UnitGroupKeeps(n: nat)
    ensures NextLength(n, 1) == n && CeilDiv(n, 1) == n
  {
  }

  lemma CeilDivOne(m: nat, d: nat)
    requires d > 0
    ensures CeilDiv(m, d) <= 1 <==> m <= d
  {
    var q := CeilDiv(m, d);
    if q >= 2 && m <= d {
      MulLe(d, 1, q - 1);
      assert false;
    }
    if q <= 1 && m > d {
      MulLe(d, q, 1);
      assert false;
    }
  }

  lemma RoundUpSmall(c: nat, d: nat)
    requires d > 0 && c <= d
    ensures RoundUp(c, d) <= d
  {
    if c < d {
      ModUnique(c, d, 0, c);
    }
  }

  /** The loop goes round again exactly when this pass has more than
      `local` work-groups. */
  lemma AgainIffManyGroups(n: nat, d: nat)
    requires d > 0
    ensures CeilDiv(NextLength(n, d), d) > 1 <==> CeilDiv(n, d) > d
  {
    var c := CeilDiv(n, d);
    CeilDivOne(NextLength(n, d), d);
    if c <= d {
      RoundUpSmall(c, d);
    }
  }

  /** More than `local` work-groups means more than `local * local`
      elements. */
  lemma ManyGroupsLong(n: nat, d: nat)
    requires d > 0 && CeilDiv(n, d) > d
    ensures n > d * d
  {
    MulLe(d, d, CeilDiv(n, d) - 1);
  }

  /** When the loop goes round again, the length has shrunk. */
  lemma NextLengthShrinks(n: nat, local: nat)
    requires local >= 2 && CeilDiv(NextLength(n, local), local) > 1
    ensures NextLength(n, local) < n
  {
    var c := CeilDiv(n, local);
    AgainIffManyGroups(n, local);
    MulLe(c - 1, 2, local);
    assert (c - 1) * local == local * (c - 1);
  }

  /** The do-while loop of the function `reductionKernel` returns, from the
      given length on, as written: each pass is launched with the current
      (rounded) length and a global size of `ceil(n / local) * local`; the
      next length is `ceil(n / local)` rounded up to a multiple of local,
      and the loop goes on while that next length spans more than one
      work-group. The result is the device after the last pass and the
      lengths the passes were launched with. */
  function Passes(dev: Device, k: ReduceKernel, op: (int, int) -> int, input: Handle, output: Handle, n: nat)
    : (r: Result<(Device, seq<nat>)>)
    requires k.local > 0 && Terminates(k.local, n)
    ensures r.Success? ==> LoopTrace(r.value.1, k.local) && r.value.1[0] == n
    ensures r.Success? ==> |r.value.1| == 1 || n > k.local * k.local
    ensures r.Success? ==> Execute(dev, k, PassCall(k, input, output, n, CeilDiv(n, k.local) * k.local), op).Success?
    ensures r.Success? ==> dev.Has(input) && OnlyWrites(dev, r.value.0, output)
    decreases n
  {
    var L := k.local;
    var dev' :- Execute(dev, k, PassCall(k, input, output, n, CeilDiv(n, L) * L), op);
    PassOnlyWrites(dev, k, input, output, n, op);
    var m := NextLength(n, L);
    if CeilDiv(m, L) > 1 then
      NextLengthShrinks(n, L);
      AgainIffManyGroups(n, L);
      ManyGroupsLong(n, L);
      var rest :- Passes(dev', k, op, output, output, m);
      OnlyWritesTrans(dev, dev', rest.0, output);
      LoopTraceCons(n, rest.1, L);
      Success((rest.0, [n] + rest.1))
    else Success((dev', [n]))
  }

  /** What a call of the returned function yields: `reduced[0]`, the
      context after it, the lengths its passes were launched with, and the
      result buffer `reduced` was read from. */
  datatype Answer = Answer(value: int, ctx: Context, lengths: seq<nat>, result: Handle)

  /** Where the partial results go: the caller's `result_d`, or a fresh
      array of `ceil(n / local)` elements of the kernel's kind sent with
      `toGPU`. */
  function ResultBuffer(ctx: Context, k: ReduceKernel, n: nat, resultD: Option<Handle>): (r: Result<(Context, Handle)>)
    requires k.local > 0
    ensures resultD.Some? ==> r == Success((ctx, resultD.value))
    ensures resultD.None? ==>
      (r.Success? <==> CeilDiv(n, k.local) > 0 && Bytes(ctx.copy, Zeros(k.kind, 1)).Some?)
    ensures resultD.None? && r.Success? ==>
      var zs := Zeros(k.kind, CeilDiv(n, k.local));
      && r.value.0.copy == ctx.copy
      && r.value.0.onGPU == ctx.onGPU + [Entry(zs, r.value.1)]
      && r.value.1 == |ctx.device.buffers|
      && r.value.0.device.buffers == ctx.device.buffers + [DeviceBuffer(|zs.cells| * Width(k.kind), zs)]
  {
    if resultD.Some? then Success((ctx, resultD.value))
    else ToGPU(ctx, Zeros(k.kind, CeilDiv(n, k.local)))
  }

  /** The function `reductionKernel` returns, called as
      `(vector_d, length, result_d)`: round the length up to a multiple of
      local, find the result buffer, run the passes, and read one element
      of the kernel's kind back from the result buffer. */
  function Invocation(ctx: Context, k: ReduceKernel, op: (int, int) -> int, vectorD: Handle, length: nat,
                      resultD: Option<Handle>): (r: Result<Answer>)
    requires k.local > 0 && Terminates(k.local, length)
    ensures r.Success? ==> r.value.ctx.copy == ctx.copy
    ensures r.Success? && resultD.Some? ==> r.value.ctx.onGPU == ctx.onGPU
    ensures r.Success? && resultD.None? ==>
      && |r.value.ctx.onGPU| == |ctx.onGPU| + 1
      && r.value.ctx.onGPU[..|ctx.onGPU|] == ctx.onGPU
      && r.value.ctx.onGPU[|ctx.onGPU|].data == Zeros(k.kind, CeilDiv(RoundUp(length, k.local), k.local))
    ensures r.Success? ==> |r.value.lengths| > 0 && r.value.lengths[0] == RoundUp(length, k.local)
    ensures r.Success? ==> LoopTrace(r.value.lengths, k.local)
    ensures r.Success? ==> r.value.result == if resultD.Some? then resultD.value else |ctx.device.buffers|
    ensures r.Success? ==>
      && r.value.ctx.device.Has(r.value.result) && |r.value.ctx.device.Cells(r.value.result)| > 0
      && r.value.ctx.device.buffers[r.value.result].image.kind == k.kind
      && r.value.value == r.value.ctx.device.Cells(r.value.result)[0]
    ensures r.Success? ==>
      && |r.value.ctx.device.buffers| == |ctx.device.buffers| + (if resultD.Some? then 0 else 1)
      && forall b | 0 <= b < |ctx.device.buffers| && b != r.value.result ::
           r.value.ctx.device.buffers[b] == ctx.device.buffers[b]
  {
    var n := RoundUp(length, k.local);
    var out :- ResultBuffer(ctx, k, n, resultD);
    var passes :- Passes(out.0.device, k, op, vectorD, out.1, n);
    var after := out.0.(device := passes.0);
    var reduced :- ReadBack(after, out.1, Some(Zeros(k.kind, 1)));
    Success(Answer(reduced.cells[0], after, passes.1, out.1))
  }

  /** `reduce(vector, op, base, local)`: send the vector, build the kernel
      for the vector's kind, and call it on the vector's handle and length
      with no result buffer. The text `opText` is what replaces `$OP`; `op`
      is the operation it computes. */
  function Reduce(ctx: Context, vector: HostArray, opText: string, op: (int, int) -> int, base: Option<int>,
                  local: Option<nat>): (r: Result<Answer>)
    requires local.Some? ==> local.value > 0 && Terminates(local.value, |vector.cells|)
    ensures r.Success? ==> |vector.cells| > 0 && Bytes(ctx.copy, vector).Some?
    ensures r.Success? ==> |r.value.ctx.onGPU| == |ctx.onGPU| + 2 && r.value.ctx.onGPU[|ctx.onGPU|].data == vector
    ensures r.Success? ==> LoopTrace(r.value.lengths, if local.Some? then local.value else 32)
    ensures r.Success? ==>
      && r.value.result == |ctx.device.buffers| + 1
      && r.value.ctx.device.Has(r.value.result) && |r.value.ctx.device.Cells(r.value.result)| > 0
      && r.value.value == r.value.ctx.device.Cells(r.value.result)[0]
    ensures r.Success? ==>
      && r.value.ctx.device.buffers[..|ctx.device.buffers|] == ctx.device.buffers
      && r.value.ctx.device.Cells(|ctx.device.buffers|) == vector.cells
  {
    var sent :- ToGPU(ctx, vector);
    var k := ReductionKernel(vector.kind, opText, base, local);
    var answer :- Invocation(sent.0, k, op, sent.1, |vector.cells|, None);
    KeepsAppended(ctx.device.buffers, sent.0.device.buffers, answer.ctx.device.buffers, answer.result);
    TwoAppended(ctx.onGPU, sent.0.onGPU, answer.ctx.onGPU);
    Success(answer)
  }

  /** Two appends in a row keep the first appended element in place. */
  lemma TwoAppended<T>(before: seq<T>, mid: seq<T>, after: seq<T>)
    requires |mid| == |before| + 1 && mid[..|before|] == before
    requires |after| == |mid| + 1 && after[..|mid|] == mid
    ensures |after| == |before| + 2 && after[|before|] == mid[|before|]
  {
    assert after[..|mid|][|before|] == after[|before|];
  }

  /** A call that appended one buffer after `before` and then wrote only
      the buffer after that keeps `before` and the appended buffer. */
  lemma KeepsAppended(before: seq<DeviceBuffer>, mid: seq<DeviceBuffer>, after: seq<DeviceBuffer>, result: nat)
    requires |mid| == |before| + 1 && mid[..|before|] == before && result == |before| + 1
    requires |after| == |mid| + 1 && forall b | 0 <= b < |mid| && b != result :: after[b] == mid[b]
    ensures after[..|before|] == before && after[|before|] == mid[|before|]
  {
  }

  /** Prefix a pass length to the lengths of the passes after it. */
  function Prepend(trace: seq<nat>, r: Result<(Device, seq<nat>)>): Result<(Device, seq<nat>)> {
    match r
    case Failure(e) => Failure(e)
    case Success((d, t)) => Success((d, trace + t))
  }

  lemma PrependNothing(x: Result<(Device, seq<nat>)>)
    ensures Prepend([], x) == x
  {
    if x.Success? {
      assert [] + x.value.1 == x.value.1;
    }
  }

  lemma PrependPrepend(t: seq<nat>, m: nat, x: Result<(Device, seq<nat>)>)
    ensures Prepend(t, Prepend([m], x)) == Prepend(t + [m], x)
  {
    if x.Success? {
      assert t + ([m] + x.value.1) == (t + [m]) + x.value.1;
    }
  }

  /** One round of the loop, as the loop method takes it: the launch, then
      either another round on the result buffer or the end. */
  lemma RoundOfLoop(total: Result<(Device, seq<nat>)>, trace: seq<nat>, d: Device, k: ReduceKernel,
                    op: (int, int) -> int, src: Handle, output: Handle, m: nat)
    requires k.local > 0 && Terminates(k.local, m)
    requires total == Prepend(trace, Passes(d, k, op, src, output, m))
    ensures var launched := Execute(d, k, PassCall(k, src, output, m, CeilDiv(m, k.local) * k.local), op);
      var next := NextLength(m, k.local);
      && (launched.Failure? ==> total == Failure(launched.error))
      && (launched.Success? && CeilDiv(next, k.local) > 1 ==>
            Terminates(k.local, next) && next < m
            && total == Prepend(trace + [m], Passes(launched.value, k, op, output, output, next)))
      && (launched.Success? && CeilDiv(next, k.local) <= 1 ==> total == Success((launched.value, trace + [m])))
  {
    var launched := Execute(d, k, PassCall(k, src, output, m, CeilDiv(m, k.local) * k.local), op);
    var next := NextLength(m, k.local);
    var again := CeilDiv(next, k.local) > 1;
    PassesUnfold(d, k, op, src, output, m);
    if launched.Success? && again {
      PrependRound(total, trace, Passes(d, k, op, src, output, m), launched, again,
                   Passes(launched.value, k, op, output, output, next), m);
    } else {
      PrependRound(total, trace, Passes(d, k, op, src, output, m), launched, again, Failure(UnknownHandle), m);
    }
  }

  /** The bookkeeping of one round, whatever the passes are: a failed
      launch fails the whole loop, and a successful one adds its length to
      the trace. */
  lemma PrependRound(total: Result<(Device, seq<nat>)>, trace: seq<nat>, p: Result<(Device, seq<nat>)>,
                     launched: Result<Device>, again: bool, rest: Result<(Device, seq<nat>)>, m: nat)
    requires total == Prepend(trace, p)
    requires launched.Failure? ==> p == Failure(launched.error)
    requires launched.Success? && again ==> p == Prepend([m], rest)
    requires launched.Success? && !again ==> p == Success((launched.value, [m]))
    ensures launched.Failure? ==> total == Failure(launched.error)
    ensures launched.Success? && again ==> total == Prepend(trace + [m], rest)
    ensures launched.Success? && !again ==> total == Success((launched.value, trace + [m]))
  {
    if launched.Success? && again {
      PrependPrepend(trace, m, rest);
    }
  }

  /** One unfolding of the loop: the launch, then either the passes from
      the next length on over the result buffer, or the end. */
  lemma PassesUnfold(d: Device, k: ReduceKernel, op: (int, int) -> int, src: Handle, output: Handle, m: nat)
    requires k.local > 0 && Terminates(k.local, m)
    ensures var launched := Execute(d, k, PassCall(k, src, output, m, CeilDiv(m, k.local) * k.local), op);
      var next := NextLength(m, k.local);
      && (launched.Failure? ==> Passes(d, k, op, src, output, m) == Failure(launched.error))
      && (launched.Success? && CeilDiv(next, k.local) > 1 ==>
            Terminates(k.local, next) && next < m
            && Passes(d, k, op, src, output, m) == Prepend([m], Passes(launched.value, k, op, output, output, next)))
      && (launched.Success? && CeilDiv(next, k.local) <= 1 ==>
            Passes(d, k, op, src, output, m) == Success((launched.value, [m])))
  {
    var launched := Execute(d, k, PassCall(k, src, output, m, CeilDiv(m, k.local) * k.local), op);
    var next := NextLength(m, k.local);
    if launched.Success? && CeilDiv(next, k.local) > 1 {
      NextLengthShrinks(m, k.local);
    }
  }

  /** The do-while loop itself. */
  method RunPasses(dev: Device, k: ReduceKernel, op: (int, int) -> int, input: Handle, output: Handle, n: nat)
    returns (r: Result<(Device, seq<nat>)>)
    requires k.local > 0 && Terminates(k.local, n)
    ensures r == Passes(dev, k, op, input, output, n)
  {
    var L := k.local;
    ghost var total := Passes(dev, k, op, input, output, n);
    var d, src, m := dev, input, n;
    var trace: seq<nat> := [];
    var again := true;
    PrependNothing(total);
    while again
      invariant Terminates(L, m)
      invariant again ==> total == Prepend(trace, Passes(d, k, op, src, output, m))
      invariant !again ==> total == Success((d, trace))
      decreases again, m
    {
      RoundOfLoop(total, trace, d, k, op, src, output, m);
      var launched := Execute(d, k, PassCall(k, src, output, m, CeilDiv(m, L) * L), op);
      if launched.Failure? {
        return Failure(launched.error);
      }
      var next := NextLength(m, L);
      again := CeilDiv(next, L) > 1;
      d, src, trace := launched.value, output, trace + [m];
      if again {
        m := next;
      }
    }
    return Success((d, trace));
  }

  /** Every group of a launch over `length` elements starts below it. */
  lemma GroupStartsInside(g: nat, n: nat, length: nat)
    requires n > 0 && g < CeilDiv(length, n)
    ensures g * n < length
  {
    MulLe(n, g, CeilDiv(length, n) - 1);
  }

  /** With a length that is a multiple of the group size, every group is
      full. */
  lemma GroupIsFull(g: nat, n: nat, length: nat)
    requires n > 0 && g < CeilDiv(length, n) && length % n == 0
    ensures g * n + n <= length
  {
    GroupStartsInside(g, n, length);
    ModUnique(g * n, n, g, 0);
    MultipleGap(g * n, length, n);
  }

  /** The fold group g of a launch over the first `length` elements of `s`
      computes. */
  function ChunkFold(s: seq<int>, g: nat, n: nat, length: nat, op: (int, int) -> int): int
    requires n > 0 && length <= |s| && g < CeilDiv(length, n)
  {
    GroupStartsInside(g, n, length);
    Fold1(Chunk(s, g, n, length), op)
  }

  /** The partial results of a launch that folds every group. */
  function PartialFolds(s: seq<int>, n: nat, length: nat, op: (int, int) -> int): (r: seq<int>)
    requires n > 0 && length <= |s|
    ensures |r| == CeilDiv(length, n)
  {
    seq(CeilDiv(length, n), g requires 0 <= g < CeilDiv(length, n) => ChunkFold(s, g, n, length, op))
  }

  lemma MulSucc(g: nat, n: nat)
    ensures (g + 1) * n == g * n + n
  {
  }

  lemma FoldSplit(s: seq<int>, a: nat, b: nat, op: (int, int) -> int)
    requires Associative(op) && 0 < a < b <= |s|
    ensures Fold1(s[..b], op) == op(Fold1(s[..a], op), Fold1(s[a..b], op))
  {
    assert s[..b] == s[..a] + s[a..b];
    Fold1Concat(s[..a], s[a..b], op);
  }

  lemma FoldSnoc(xs: seq<int>, j: nat, op: (int, int) -> int)
    requires 1 <= j < |xs|
    ensures Fold1(xs[..j + 1], op) == op(Fold1(xs[..j], op), xs[j])
  {
    assert xs[..j + 1][..j] == xs[..j];
  }

  /** Extending both prefixes by one group keeps their folds equal. */
  lemma PrefixStep(s: seq<int>, ps: seq<int>, g: nat, lo: nat, hi: nat, op: (int, int) -> int)
    requires Associative(op) && 1 <= g < |ps| && 0 < lo < hi <= |s|
    requires Fold1(ps[..g], op) == Fold1(s[..lo], op) && ps[g] == Fold1(s[lo..hi], op)
    ensures Fold1(ps[..g + 1], op) == Fold1(s[..hi], op)
  {
    FoldSnoc(ps, g, op);
    FoldSplit(s, lo, hi, op);
  }

  /** `ps` holds the folds of the consecutive ranges of `s` that `cuts`
      delimits, the first starting at index 0. */
  ghost predicate FoldsBetween(s: seq<int>, ps: seq<int>, cuts: seq<nat>, op: (int, int) -> int) {
    |cuts| == |ps| + 1 && cuts[0] == 0 &&
    forall g :: 0 <= g < |ps| ==> FoldsRange(s, ps, cuts, op, g)
  }

  /** `ps[g]` folds the non-empty range from `cuts[g]` to `cuts[g + 1]`. */
  ghost predicate FoldsRange(s: seq<int>, ps: seq<int>, cuts: seq<nat>, op: (int, int) -> int, g: nat)
    requires g < |ps| && |cuts| == |ps| + 1
  {
    cuts[g] < cuts[g + 1] <= |s| && ps[g] == Fold1(s[cuts[g]..cuts[g + 1]], op)
  }

  /** Folding the first j range folds, left to right, folds everything the
      first j ranges cover. */
  lemma {:induction false} FoldOfRanges(s: seq<int>, ps: seq<int>, cuts: seq<nat>, op: (int, int) -> int, j: nat)
    requires Associative(op) && FoldsBetween(s, ps, cuts, op) && 1 <= j <= |ps|
    ensures 0 < cuts[j] <= |s|
    ensures Fold1(ps[..j], op) == Fold1(s[..cuts[j]], op)
    decreases j
  {
    if j == 1 {
      assert FoldsRange(s, ps, cuts, op, 0);
      assert ps[..1] == [ps[0]];
      assert s[..cuts[1]] == s[cuts[0]..cuts[1]];
    } else {
      FoldOfRanges(s, ps, cuts, op, j - 1);
      assert FoldsRange(s, ps, cuts, op, j - 1);
      PrefixStep(s, ps, j - 1, cuts[j - 1], cuts[j], op);
    }
  }

  /** The group boundaries `min(length, g * n)` delimit the ranges whose
      folds are the partial results. */
  lemma GroupCuts(s: seq<int>, n: nat, length: nat, op: (int, int) -> int) returns (cuts: seq<nat>)
    requires n > 0 && 0 < length <= |s|
    ensures FoldsBetween(s, PartialFolds(s, n, length, op), cuts, op)
    ensures cuts[|cuts| - 1] == length
  {
    var G := CeilDiv(length, n);
    var ps := PartialFolds(s, n, length, op);
    cuts := seq(G + 1, g requires 0 <= g <= G => Min(length, g * n));
    forall g | 0 <= g < G
      ensures FoldsRange(s, ps, cuts, op, g)
    {
      GroupStartsInside(g, n, length);
      MulSucc(g, n);
    }
    assert Min(length, G * n) == length;
  }

  /** Folding all partial results folds the whole range. */
  lemma FoldOfChunks(s: seq<int>, n: nat, length: nat, op: (int, int) -> int)
    requires n > 0 && 0 < length <= |s| && Associative(op)
    ensures Fold1(PartialFolds(s, n, length, op), op) == Fold1(s[..length], op)
  {
    var ps := PartialFolds(s, n, length, op);
    var cuts := GroupCuts(s, n, length, op);
    FoldOfRanges(s, ps, cuts, op, |ps|);
    assert ps[..|ps|] == ps;
  }

  /** A launch of `ceil(length / n)` power-of-two groups with an
      associative operator writes, to the first elements of the output, the
      fold of each group's elements; nothing else on the device changes.
      The base must be an identity unless every group is full. */
  lemma LaunchFolds(dev: Device, input: Handle, length: nat, output: Handle, n: nat, base: int,
                    op: (int, int) -> int)
    requires IsPow2(n) && Associative(op)
    requires dev.Has(input) && dev.Has(output) && length <= |dev.Cells(input)|
    requires CeilDiv(length, n) <= |dev.Cells(output)|
    requires IsIdentity(base, op) || length % n == 0
    ensures var r := Launch(dev, input, length, output, CeilDiv(length, n), n, base, op);
      && r.Success?
      && |r.value.buffers| == |dev.buffers|
      && r.value.buffers[output].image.kind == dev.buffers[output].image.kind
      && |r.value.Cells(output)| == |dev.Cells(output)|
      && r.value.Cells(output)[..CeilDiv(length, n)] == PartialFolds(dev.Cells(input), n, length, op)
      && forall b | 0 <= b < |dev.buffers| && b != output :: r.value.buffers[b] == dev.buffers[b]
  {
    var cells := dev.Cells(input);
    var G := CeilDiv(length, n);
    forall g | 0 <= g < G
      ensures GroupValue(cells, g, n, length, base, op) == Success(ChunkFold(cells, g, n, length, op))
    {
      GroupStartsInside(g, n, length);
      if !IsIdentity(base, op) {
        GroupIsFull(g, n, length);
      }
      GroupIsFold(cells, g, n, length, base, op);
    }
    assert Partials(cells, G, n, length, base, op).value == PartialFolds(cells, n, length, op);
  }

  lemma MultipleAtLeast(n: nat, d: nat)
    requires d > 0 && n > 0 && n % d == 0
    ensures n >= d
  {
    MultipleGap(0, n, d);
  }

  /** The last group of a launch over a multiple of the group size ends
      exactly at the length. */
  lemma LastGroupEnds(n: nat, d: nat)
    requires d > 0 && n > 0 && n % d == 0
    ensures CeilDiv(n, d) > 0 && (CeilDiv(n, d) - 1) * d + d == n
  {
    var G := CeilDiv(n, d);
    GroupIsFull(G - 1, d, n);
    MulSucc(G - 1, d);
  }

  /** A one-pass call of the kernel function on a vector whose length is a
      whole number of groups, at most `local` of them: the answer read back
      is the fold of the first group alone. */
  lemma InvocationOnePass(ctx: Context, k: ReduceKernel, op: (int, int) -> int, vectorD: Handle, length: nat)
    requires k.local > 0 && Terminates(k.local, length) && IsPow2(k.local) && Associative(op)
    requires ctx.device.Has(vectorD) && 0 < length <= |ctx.device.Cells(vectorD)|
    requires length % k.local == 0 && k.local <= length <= k.local * k.local
    requires Bytes(ctx.copy, Zeros(k.kind, 1)).Some?
    ensures var r := Invocation(ctx, k, op, vectorD, length, None);
      && r.Success?
      && r.value.value == Fold1(ctx.device.Cells(vectorD)[..k.local], op)
      && r.value.lengths == [length]
  {
    var L := k.local;
    var cells := ctx.device.Cells(vectorD);
    var n := RoundUp(length, L);
    assert n == length;
    var G := CeilDiv(n, L);
    LastGroupEnds(n, L);
    MultipleAtLeast(n, L);
    var out := ToGPU(ctx, Zeros(k.kind, G)).value;
    var dev1 := out.0.device;
    assert dev1.Cells(vectorD) == cells;
    PassCallLaunches(dev1, k, vectorD, out.1, n, G, op);
    LaunchFolds(dev1, vectorD, n, out.1, L, k.base, op);
    var dev2 := Launch(dev1, vectorD, n, out.1, G, L, k.base, op).value;
    AgainIffManyGroups(n, L);
    if G > L {
      ManyGroupsLong(n, L);
    }
    assert Passes(dev1, k, op, vectorD, out.1, n) == Success((dev2, [n]));
    GroupStartsInside(0, L, n);
    assert 0 * L == 0 && Min(n, 0 * L + L) == L;
    assert Chunk(cells, 0, L, n) == cells[..L];
    assert PartialFolds(cells, L, n, op)[0] == ChunkFold(cells, 0, L, n, op);
    assert dev2.Cells(out.1)[0] == PartialFolds(cells, L, n, op)[0];
  }

  /** As written, `reduce` answers with the fold of the first `local`
      elements whenever the vector spans at most `local` whole groups. */
  lemma ReduceFirstGroupOnly(ctx: Context, v: HostArray, opText: string, op: (int, int) -> int, base: Option<int>,
                             local: Option<nat>)
    requires local.Some? ==> local.value > 0 && Terminates(local.value, |v.cells|)
    requires var L := if local.Some? then local.value else 32;
      IsPow2(L) && L <= |v.cells| <= L * L && |v.cells| % L == 0
    requires Associative(op) && Bytes(ctx.copy, v).Some?
    ensures var L := if local.Some? then local.value else 32;
      var r := Reduce(ctx, v, opText, op, base, local);
      r.Success? && r.value.value == Fold1(v.cells[..L], op) && r.value.lengths == [|v.cells|]
  {
    var sent := ToGPU(ctx, v).value;
    var k := ReductionKernel(v.kind, opText, base, local);
    assert sent.0.device.Cells(sent.1) == v.cells;
    InvocationOnePass(sent.0, k, op, sent.1, |v.cells|);
  }

  function Plus(a: int, b: int): int {
    a + b
  }

  lemma PlusAssociative()
    ensures Associative(Plus)
  {
  }

  lemma FoldsOfOnes()
    ensures Fold1([1, 1], Plus) == 2 && Fold1([1, 1, 1, 1], Plus) == 4
  {
    assert [1, 1][..1] == [1];
    assert [1, 1, 1, 1][..3] == [1, 1, 1] && [1, 1, 1][..2] == [1, 1];
  }

  /** The smallest case: four ones summed with a work-group of two. The
      answer is 2; the sum is 4. */
  lemma FourOnesSumToTwo(ctx: Context)
    ensures var v := HostArray(Int32Array, [1, 1, 1, 1]);
      var r := Reduce(ctx, v, "a + b", Plus, None, Some(2));
      r.Success? && r.value.value == 2 && Fold1(v.cells, Plus) == 4
  {
    var v := HostArray(Int32Array, [1, 1, 1, 1]);
    assert IsPow2(2) && Terminates(2, 4);
    assert Bytes(ctx.copy, v).Some?;
    PlusAssociative();
    ReduceFirstGroupOnly(ctx, v, "a + b", Plus, None, Some(2));
    assert v.cells[..2] == [1, 1];
    FoldsOfOnes();
  }

  /** The first launch of a call loads up to the rounded length: a buffer
      shorter than that is read past its end, so the call fails. */
  lemma InvocationReadsRoundedLength(ctx: Context, k: ReduceKernel, op: (int, int) -> int, vectorD: Handle,
                                     length: nat, resultD: Option<Handle>)
    requires k.local > 0 && Terminates(k.local, length)
    requires ctx.device.Has(vectorD) && |ctx.device.Cells(vectorD)| < RoundUp(length, k.local)
    ensures Invocation(ctx, k, op, vectorD, length, resultD).Failure?
  {
    var L := k.local;
    var n := RoundUp(length, L);
    var out := ResultBuffer(ctx, k, n, resultD);
    if out.Success? {
      var dev1 := out.value.0.device;
      var cells := dev1.Cells(vectorD);
      assert cells == ctx.device.Cells(vectorD);
      LastGroupEnds(n, L);
      PassCallLaunches(dev1, k, vectorD, out.value.1, n, CeilDiv(n, L), op);
      LaunchPastEnd(dev1, vectorD, n, out.value.1, L, k.base, op);
      assert Passes(dev1, k, op, vectorD, out.value.1, n).Failure?;
    }
  }

  /** A launch over a whole number of groups of `n` elements fails when the
      input holds fewer than `n`: the last group loads past its end. */
  lemma LaunchPastEnd(dev: Device, input: Handle, n: nat, output: Handle, L: nat, base: int, op: (int, int) -> int)
    requires L > 0 && n > 0 && n % L == 0
    requires dev.Has(input) && |dev.Cells(input)| < n
    ensures Launch(dev, input, n, output, CeilDiv(n, L), L, base, op).Failure?
  {
    var cells := dev.Cells(input);
    var G := CeilDiv(n, L);
    LastGroupEnds(n, L);
    GroupStartsInside(G - 1, L, n);
    assert Load(cells, G - 1, L, n, base).Failure?;
    assert Partials(cells, G, L, n, base, op).Failure?;
  }

  /** As written, the result buffer holds `ceil(n / local)` elements, but
      the second pass is launched with that count rounded up to a multiple
      of local. When the rounding adds elements, the second pass reads past
      the end of the result buffer. */
  lemma SecondPassOverruns(dev: Device, k: ReduceKernel, op: (int, int) -> int, input: Handle, output: Handle,
                           n: nat)
    requires k.local >= 2 && CeilDiv(n, k.local) > k.local
    requires dev.Has(output) && |dev.Cells(output)| < NextLength(n, k.local)
    ensures Passes(dev, k, op, input, output, n).Failure?
  {
    var L := k.local;
    var e := Execute(dev, k, PassCall(k, input, output, n, CeilDiv(n, L) * L), op);
    PassOnlyWrites(dev, k, input, output, n, op);
    if e.Success? {
      var m := NextLength(n, L);
      AgainIffManyGroups(n, L);
      PassLaunch(e.value, k, output, output, m, op);
      LaunchPastEnd(e.value, output, m, output, L, k.base, op);
      assert Passes(e.value, k, op, output, output, m).Failure?;
    }
  }

  /** As written, `reduce` fails whenever its first pass leaves more than
      `local` partial results whose count is not a multiple of `local`,
      however whole the vector's groups are. */
  lemma ReduceSecondPassOverruns(ctx: Context, v: HostArray, opText: string, op: (int, int) -> int,
                                 base: Option<int>, local: Option<nat>)
    requires local.Some? ==> local.value > 0
    requires var L := if local.Some? then local.value else 32;
      var c := CeilDiv(RoundUp(|v.cells|, L), L);
      L >= 2 && c > L && c % L != 0
    ensures Reduce(ctx, v, opText, op, base, local).Failure?
  {
    var sent := ToGPU(ctx, v);
    if sent.Success? {
      var k := ReductionKernel(v.kind, opText, base, local);
      InvocationSecondPassOverruns(sent.value.0, k, op, sent.value.1, |v.cells|);
    }
  }

  /** The call of the kernel function with no result buffer fails in the
      same way: its own result buffer is too short for the second pass. */
  lemma InvocationSecondPassOverruns(ctx: Context, k: ReduceKernel, op: (int, int) -> int, vectorD: Handle,
                                     length: nat)
    requires k.local >= 2
    requires var c := CeilDiv(RoundUp(length, k.local), k.local); c > k.local && c % k.local != 0
    ensures Invocation(ctx, k, op, vectorD, length, None).Failure?
  {
    var n := RoundUp(length, k.local);
    var out := ResultBuffer(ctx, k, n, None);
    if out.Success? {
      var dev1 := out.value.0.device;
      assert dev1.Has(out.value.1) && |dev1.Cells(out.value.1)| == CeilDiv(n, k.local);
      SecondPassOverruns(dev1, k, op, vectorD, out.value.1, n);
    }
  }

  /** Twenty ones summed with a work-group of four: five whole groups, yet
      the second pass is launched over eight elements of the five-element
      result buffer, and `reduce` fails. */
  lemma TwentyOnesFail(ctx: Context)
    ensures var v := HostArray(Int32Array, seq(20, _ => 1));
      |v.cells| % 4 == 0 && Reduce(ctx, v, "a + b", Plus, None, Some(4)).Failure?
  {
    var v := HostArray(Int32Array, seq(20, _ => 1));
    assert RoundUp(20, 4) == 20 && CeilDiv(20, 4) == 5;
    ReduceSecondPassOverruns(ctx, v, "a + b", Plus, None, Some(4));
  }

  /** `reduce` fails unless the vector's length is a whole number of
      groups. */
  lemma ReduceNeedsWholeGroups(ctx: Context, v: HostArray, opText: string, op: (int, int) -> int,
                               base: Option<int>, local: Option<nat>)
    requires local.Some? ==> local.value > 0 && Terminates(local.value, |v.cells|)
    ensures var L := if local.Some? then local.value else 32;
      Reduce(ctx, v, opText, op, base, local).Success? ==> |v.cells| % L == 0
  {
    var sent := ToGPU(ctx, v);
    if sent.Success? {
      var k := ReductionKernel(v.kind, opText, base, local);
      assert sent.value.0.device.Cells(sent.value.1) == v.cells;
      if |v.cells| % k.local != 0 {
        InvocationReadsRoundedLength(sent.value.0, k, op, sent.value.1, |v.cells|, None);
      }
    }
  }

  lemma CeilDivAtMost(m: nat, d: nat)
    requires d > 0
    ensures CeilDiv(m, d) <= m
  {
    var q := CeilDiv(m, d);
    if q > m {
      MulLe(q - 1, 1, d);
      assert false;
    }
  }

  /** `ceil(m / local)` is below m once m has two elements or more. */
  lemma GroupsFewerThanElements(m: nat, d: nat)
    requires d >= 2 && m >= 2
    ensures CeilDiv(m, d) < m
  {
    var q := CeilDiv(m, d);
    if q >= m {
      MulLe(q - 1, 2, d);
      assert false;
    }
  }

  /** The lengths the passes of the intended loop are launched with: each
      after the first is the group count of the one before, the loop goes
      on after every pass that left more than one partial result, and it
      stops after the first pass that left one. */
  predicate IntendedTrace(ls: seq<nat>, local: nat)
    requires local > 0
  {
    && |ls| > 0
    && (forall i | 0 < i < |ls| :: ls[i] == CeilDiv(ls[i - 1], local))
    && (forall i | 0 <= i < |ls| - 1 :: CeilDiv(ls[i], local) > 1)
    && CeilDiv(ls[|ls| - 1], local) <= 1
  }

  lemma IntendedTraceCons(m: nat, rest: seq<nat>, local: nat)
    requires local > 0 && IntendedTrace(rest, local)
    requires rest[0] == CeilDiv(m, local) && CeilDiv(m, local) > 1
    ensures IntendedTrace([m] + rest, local)
  {
    var ls := [m] + rest;
    forall i | 0 < i < |ls| ensures ls[i] == CeilDiv(ls[i - 1], local) {
      if i > 1 {
        assert ls[i] == rest[i - 1] && ls[i - 1] == rest[i - 2];
      }
    }
    forall i | 0 <= i < |ls| - 1 ensures CeilDiv(ls[i], local) > 1 {
      if i > 0 {
        assert ls[i] == rest[i - 1];
      }
    }
    assert ls[|ls| - 1] == rest[|rest| - 1];
  }

  /** The loop as evidently intended: each pass is launched with the
      number of elements actually present, and the loop goes on while that
      pass left more than one partial result. */
  function PassesIntended(dev: Device, k: ReduceKernel, op: (int, int) -> int, input: Handle, output: Handle, m: nat)
    : (r: Result<(Device, seq<nat>)>)
    requires k.local > 0 && Terminates(k.local, m)
    ensures r.Success? ==> IntendedTrace(r.value.1, k.local) && r.value.1[0] == m
    decreases m
  {
    var L := k.local;
    var groups := CeilDiv(m, L);
    CeilDivOne(m, L);
    var dev' :- Execute(dev, k, PassCall(k, input, output, m, groups * L), op);
    if groups > 1 then
      GroupsFewerThanElements(m, L);
      var rest :- PassesIntended(dev', k, op, output, output, groups);
      IntendedTraceCons(m, rest.1, L);
      Success((rest.0, [m] + rest.1))
    else Success((dev', [m]))
  }

  /** One unfolding of the intended loop: the launch, then either the
      passes over its partial results or the end. */
  lemma PassesIntendedUnfold(dev: Device, k: ReduceKernel, op: (int, int) -> int, input: Handle, output: Handle,
                             m: nat)
    requires k.local > 0 && Terminates(k.local, m)
    ensures var G := CeilDiv(m, k.local);
      var e := Execute(dev, k, PassCall(k, input, output, m, G * k.local), op);
      && (e.Failure? ==> PassesIntended(dev, k, op, input, output, m) == Failure(e.error))
      && (e.Success? && G > 1 ==>
            Terminates(k.local, G) && G < m
            && PassesIntended(dev, k, op, input, output, m)
               == Prepend([m], PassesIntended(e.value, k, op, output, output, G)))
      && (e.Success? && G <= 1 ==> PassesIntended(dev, k, op, input, output, m) == Success((e.value, [m])))
  {
    var G := CeilDiv(m, k.local);
    CeilDivOne(m, k.local);
    if G > 1 {
      GroupsFewerThanElements(m, k.local);
    }
  }

  /** The kernel built with the intended element type. */
  function ReductionKernelIntended(t: ArrayKind, opText: string, base: Option<int>, local: Option<nat>): (k: ReduceKernel)
    ensures k.kind == t && k.typeName == ClTypeIntended(t) && k.opText == opText
    ensures k.local == ReductionKernel(t, opText, base, local).local
    ensures k.base == ReductionKernel(t, opText, base, local).base
  {
    ReductionKernel(t, opText, base, local).(typeName := ClTypeIntended(t))
  }

  /** `reduce` as evidently intended: the result buffer holds one element
      per group of the first pass, and the passes follow the number of
      elements actually present. */
  function ReduceIntended(ctx: Context, vector: HostArray, opText: string, op: (int, int) -> int, base: Option<int>,
                          local: Option<nat>): (r: Result<Answer>)
    requires local.Some? ==> local.value > 0
    ensures r.Success? ==> |vector.cells| > 0 && Bytes(ctx.copy, vector).Some?
    ensures r.Success? ==> Terminates(if local.Some? then local.value else 32, |vector.cells|)
    ensures r.Success? ==>
      && |r.value.ctx.onGPU| == |ctx.onGPU| + 2 && r.value.ctx.onGPU[|ctx.onGPU|].data == vector
      && |r.value.lengths| > 0 && r.value.lengths[0] == |vector.cells|
  {
    var sent :- ToGPU(ctx, vector);
    var k := ReductionKernelIntended(vector.kind, opText, base, local);
    if !Terminates(k.local, |vector.cells|) then Failure(BadWorkSize)
    else InvocationIntended(sent.0, k, op, sent.1, |vector.cells|)
  }

  /** The intended kernel call on the first `m` elements of buffer
      `vectorD`: a result buffer of one element per group, the passes, and
      the readback of the first element. */
  function InvocationIntended(ctx: Context, k: ReduceKernel, op: (int, int) -> int, vectorD: Handle, m: nat)
    : (r: Result<Answer>)
    requires k.local > 0 && Terminates(k.local, m)
    ensures r.Success? ==> |r.value.lengths| > 0 && r.value.lengths[0] == m
    ensures r.Success? ==> |r.value.ctx.onGPU| == |ctx.onGPU| + 1 && r.value.ctx.onGPU[..|ctx.onGPU|] == ctx.onGPU
  {
    var out :- ToGPU(ctx, Zeros(k.kind, CeilDiv(m, k.local)));
    var passes :- PassesIntended(out.0.device, k, op, vectorD, out.1, m);
    var after := out.0.(device := passes.0);
    var reduced :- ReadBack(after, out.1, Some(Zeros(k.kind, 1)));
    Success(Answer(reduced.cells[0], after, passes.1, out.1))
  }

  /** Every pass of the intended loop folds the partial results of the one
      before: the first element of the output ends as the fold of the first
      m elements of the input. The output keeps its kind and length. */
  lemma {:induction false} PassesIntendedFold(dev: Device, k: ReduceKernel, op: (int, int) -> int, input: Handle,
                                             output: Handle, m: nat)
    requires k.local > 0 && Terminates(k.local, m) && IsPow2(k.local)
    requires Associative(op) && IsIdentity(k.base, op)
    requires dev.Has(input) && dev.Has(output) && 0 < m <= |dev.Cells(input)|
    requires CeilDiv(m, k.local) <= |dev.Cells(output)|
    ensures var r := PassesIntended(dev, k, op, input, output, m);
      && r.Success?
      && |r.value.0.buffers| == |dev.buffers|
      && r.value.0.buffers[output].image.kind == dev.buffers[output].image.kind
      && |r.value.0.Cells(output)| == |dev.Cells(output)|
      && r.value.0.Cells(output)[0] == Fold1(dev.Cells(input)[..m], op)
    decreases m
  {
    var L := k.local;
    var cells := dev.Cells(input);
    var G := CeilDiv(m, L);
    PassCallLaunches(dev, k, input, output, m, G, op);
    LaunchFolds(dev, input, m, output, L, k.base, op);
    var dev' := Launch(dev, input, m, output, G, L, k.base, op).value;
    FoldOfChunks(cells, L, m, op);
    CeilDivOne(m, L);
    PassesIntendedUnfold(dev, k, op, input, output, m);
    if G > 1 {
      GroupsFewerThanElements(m, L);
      CeilDivAtMost(G, L);
      assert dev'.Cells(output)[..G] == PartialFolds(cells, L, m, op);
      PassesIntendedFold(dev', k, op, output, output, G);
    } else {
      CeilDivOne(m, L);
      GroupStartsInside(0, L, m);
      assert Chunk(cells, 0, L, m) == cells[..m];
      assert PartialFolds(cells, L, m, op) == [ChunkFold(cells, 0, L, m, op)];
      assert dev'.Cells(output)[..G][0] == dev'.Cells(output)[0];
    }
  }

  /** With a power-of-two work-group, an associative operator and a base
      that is its identity, the intended `reduce` answers with the fold of
      the whole vector, for every non-empty vector the context can send; a
      work-group of one on a longer vector is refused. */
  lemma ReduceIntendedIsFold(ctx: Context, v: HostArray, opText: string, op: (int, int) -> int, base: Option<int>,
                             local: Option<nat>)
    requires local.Some? ==> local.value > 0
    requires IsPow2(if local.Some? then local.value else 32)
    requires Associative(op) && IsIdentity(if base.Some? then base.value else 0, op)
    requires |v.cells| > 0 && Bytes(ctx.copy, v).Some?
    ensures var L := if local.Some? then local.value else 32;
      var r := ReduceIntended(ctx, v, opText, op, base, local);
      && (Terminates(L, |v.cells|) ==> r.Success? && r.value.value == Fold1(v.cells, op))
      && (!Terminates(L, |v.cells|) ==> r == Failure(BadWorkSize))
  {
    var sent := ToGPU(ctx, v).value;
    var k := ReductionKernelIntended(v.kind, opText, base, local);
    if Terminates(k.local, |v.cells|) {
      assert sent.0.device.Cells(sent.1) == v.cells;
      InvocationIntendedIsFold(sent.0, k, op, sent.1, |v.cells|);
      assert v.cells[..|v.cells|] == v.cells;
    }
  }

  /** The intended call folds the first `m` elements of a buffer whose kind
      the context can size. */
  lemma InvocationIntendedIsFold(ctx: Context, k: ReduceKernel, op: (int, int) -> int, vectorD: Handle, m: nat)
    requires k.local > 0 && Terminates(k.local, m) && IsPow2(k.local)
    requires Associative(op) && IsIdentity(k.base, op)
    requires ctx.device.Has(vectorD) && 0 < m <= |ctx.device.Cells(vectorD)|
    requires Bytes(ctx.copy, Zeros(k.kind, 1)).Some?
    ensures var r := InvocationIntended(ctx, k, op, vectorD, m);
      r.Success? && r.value.value == Fold1(ctx.device.Cells(vectorD)[..m], op)
  {
    var zs := Zeros(k.kind, CeilDiv(m, k.local));
    assert Bytes(ctx.copy, zs).Some? && |zs.cells| > 0;
    var out := ToGPU(ctx, zs).value;
    var dev1 := out.0.device;
    assert dev1.Cells(vectorD) == ctx.device.Cells(vectorD);
    PassesIntendedFold(dev1, k, op, vectorD, out.1, m);
    var passes := PassesIntended(dev1, k, op, vectorD, out.1, m).value;
    ReadFirst(out.0.(device := passes.0), out.1, k.kind);
  }

  /** Reading one element back from a buffer of the same kind gives its
      first element. */
  lemma ReadFirst(ctx: Context, h: Handle, kind: ArrayKind)
    requires ctx.device.Has(h) && ctx.device.buffers[h].image.kind == kind && |ctx.device.Cells(h)| > 0
    requires Bytes(ctx.copy, Zeros(kind, 1)).Some?
    ensures ReadBack(ctx, h, Some(Zeros(kind, 1))).Success?
    ensures ReadBack(ctx, h, Some(Zeros(kind, 1))).value.cells[0] == ctx.device.Cells(h)[0]
  {
  }
}

=== FILE: template.dfy ===
/** The reduction kernel's source template and its textual instantiation:
    global replacement of `$N`, `$TYPE`, `$OP` and `$BASE`, in that order,
    and the array-kind to OpenCL C type-name mapping. */
module Template {
  import opened Common
  import opened Types

  datatype Placeholder = N | TYPE | OP | BASE

  function Token(p: Placeholder): string {
    match p
    case N => "$N"
    case TYPE => "$TYPE"
    case OP => "$OP"
    case BASE => "$BASE"
  }

  /** A template seen as literal text interleaved with placeholders. */
  datatype Piece = Lit(text: string) | Hole(p: Placeholder)

  function Text(x: Piece): string {
    match x
    case Lit(t) => t
    case Hole(p) => Token(p)
  }

  function Render(ps: seq<Piece>): string {
    if |ps| == 0 then "" else Text(ps[0]) + Render(ps[1..])
  }

  /** Literal text never contains `$`: the only `$` are the placeholders'. */
  predicate WellFormed(ps: seq<Piece>) {
    forall i | 0 <= i < |ps| :: ps[i].Lit? ==> '$' !in ps[i].text
  }

  /** Every hole for `p` turned into the literal `r`. */
  function Fill(ps: seq<Piece>, p: Placeholder, r: string): (qs: seq<Piece>)
    ensures |qs| == |ps|
  {
    if |ps| == 0 then []
    else (if ps[0] == Hole(p) then [Lit(r)] else [ps[0]]) + Fill(ps[1..], p, r)
  }

  /** The literal text of the kernel template `reduceSource`, between its
      placeholders. The source's line continuations leave each line's
      indentation in the text. */
  const KernelHead: string :=
    "__kernel void reduce(__global "

  const BufferParam: string :=
    "* buffer, __const int length, __gl"
    + "obal "

  const ResultParam: string :=
    "* result) {         local "

  const ScratchDecl: string :=
    " scratch["

  const LoadStepHead: string :=
    "];         int global_index = get_"
    + "global_id(0);         int local_in"
    + "dex = get_local_id(0);         if "
    + "(global_index < length)           "

  const LoadStepTail: string :=
    "  scratch[local_index] = buffer[gl"
    + "obal_index];         else         "
    + "    scratch[local_index] = "

  const LoadStep: string := LoadStepHead + LoadStepTail

  const HalvingLoopHead: string :=
    ";         barrier(CLK_LOCAL_MEM_FE"
    + "NCE);         for (int offset = 1;"
    + " offset < get_local_size(0); offse"
    + "t <<= 1) {             int mask = "

  const HalvingLoopTail: string :=
    "(offset << 1) - 1;             if "
    + "((local_index & mask) == 0) {     "
    + "            "

  const HalvingLoop: string := HalvingLoopHead + HalvingLoopTail

  const ReadA: string :=
    " a = scratch[local_index];        "
    + "         "

  const ReadB: string :=
    " b = scratch[local_index + offset]"
    + ";                 scratch[local_in"
    + "dex] = "

  const EpilogueHead: string :=
    ";             }             barrie"
    + "r(CLK_LOCAL_MEM_FENCE);         } "
    + "        if (local_index == 0)     "

  const EpilogueTail: string :=
    "        result[get_group_id(0)] = "
    + "scratch[0];     }"

  const Epilogue: string := EpilogueHead + EpilogueTail

  /** The kernel template `reduceSource`. */
  const ReducePieces: seq<Piece> := [
    Lit(KernelHead),
    Hole(TYPE),
    Lit(BufferParam),
    Hole(TYPE),
    Lit(ResultParam),
    Hole(TYPE),
    Lit(ScratchDecl),
    Hole(N),
    Lit(LoadStep),
    Hole(BASE),
    Lit(HalvingLoop),
    Hole(TYPE),
    Lit(ReadA),
    Hole(TYPE),
    Lit(ReadB),
    Hole(OP),
    Lit(Epilogue)
  ]

  const ReduceSource: string := Render(ReducePieces)

  /** `s.replace(/tok/g, r)`: a left-to-right scan replacing every
      non-overlapping occurrence of `tok`. The replacement is taken
      literally. */
  function ReplaceAll(s: string, tok: string, r: string): string
    requires |tok| > 0
    decreases |s|
  {
    if |s| == 0 then ""
    else if tok <= s then r + ReplaceAll(s[|tok|..], tok, r)
    else [s[0]] + ReplaceAll(s[1..], tok, r)
  }

  /** Text without `$` passes through a replacement of a `$`-token unchanged. */
  lemma {:induction false} ReplaceAllPlain(a: string, b: string, tok: string, r: string)
    requires |tok| > 0 && tok[0] == '$' && '$' !in a
    ensures ReplaceAll(a + b, tok, r) == a + ReplaceAll(b, tok, r)
    decreases |a|
  {
    if |a| > 0 {
      assert (a + b)[0] == a[0];
      assert !(tok <= a + b);
      assert (a + b)[1..] == a[1..] + b;
      ReplaceAllPlain(a[1..], b, tok, r);
      assert [a[0]] + a[1..] == a;
    } else {
      assert a + b == b;
    }
  }

  /** A token followed by anything: replacing it yields the replacement. */
  lemma ReplaceAllHit(b: string, p: Placeholder, r: string)
    ensures ReplaceAll(Token(p) + b, Token(p), r) == r + ReplaceAll(b, Token(p), r)
  {
    var s := Token(p) + b;
    assert Token(p) <= s;
    assert s[|Token(p)|..] == b;
  }

  /** Another placeholder's token followed by anything is passed over: the
      four tokens already differ in their second character. */
  lemma ReplaceAllMiss(q: Placeholder, b: string, p: Placeholder, r: string)
    requires q != p
    ensures ReplaceAll(Token(q) + b, Token(p), r) == Token(q) + ReplaceAll(b, Token(p), r)
  {
    TokenShape(q);
    TokenShape(p);
    TokensDiffer(q, p);
    ReplaceAllSkip(Token(q), b, Token(p), r);
  }

  /** A `$`-word whose second character differs from the token's is not
      a match, and the rest of it holds no `$`. */
  lemma ReplaceAllSkip(t: string, b: string, tok: string, r: string)
    requires |t| >= 2 && |tok| >= 2 && t[0] == '$' && tok[0] == '$' && t[1] != tok[1]
    requires '$' !in t[1..]
    ensures ReplaceAll(t + b, tok, r) == t + ReplaceAll(b, tok, r)
  {
    var s := t + b;
    assert s[1] == t[1];
    assert !(tok <= s);
    assert s[1..] == t[1..] + b;
    ReplaceAllPlain(t[1..], b, tok, r);
    assert [s[0]] + t[1..] == t;
  }

  /** A token is `$` followed by a name without `$`. */
  lemma TokenShape(p: Placeholder)
    ensures |Token(p)| >= 2 && Token(p)[0] == '$' && '$' !in Token(p)[1..]
  {
    match p
    case N => assert Token(p)[1..] == "N";
    case TYPE => assert Token(p)[1..] == "TYPE";
    case OP => assert Token(p)[1..] == "OP";
    case BASE => assert Token(p)[1..] == "BASE";
  }

  /** The four tokens differ in their second character. */
  lemma TokensDiffer(q: Placeholder, p: Placeholder)
    requires q != p
    ensures Token(q)[1] != Token(p)[1]
  {
  }

  /** One piece followed by anything: its token is replaced exactly when it
      is the token sought. */
  lemma ReplaceAllPiece(x: Piece, b: string, p: Placeholder, r: string)
    requires x.Lit? ==> '$' !in x.text
    ensures ReplaceAll(Text(x) + b, Token(p), r)
         == Text(if x == Hole(p) then Lit(r) else x) + ReplaceAll(b, Token(p), r)
  {
    match x
    case Lit(t) => ReplaceAllPlain(t, b, Token(p), r);
    case Hole(q) =>
      if q == p { ReplaceAllHit(b, p, r); } else { ReplaceAllMiss(q, b, p, r); }
  }

  /** Replacing a placeholder's token in a rendered template is the same as
      filling that placeholder's holes. */
  lemma {:induction false} ReplaceAllRender(ps: seq<Piece>, p: Placeholder, r: string)
    requires WellFormed(ps)
    ensures ReplaceAll(Render(ps), Token(p), r) == Render(Fill(ps, p, r))
    decreases |ps|
  {
    if |ps| > 0 {
      ReplaceAllPiece(ps[0], Render(ps[1..]), p, r);
      assert WellFormed(ps[1..]) by {
        forall i | 0 <= i < |ps[1..]| ensures ps[1..][i].Lit? ==> '$' !in ps[1..][i].text {
          assert ps[1..][i] == ps[i + 1];
        }
      }
      ReplaceAllRender(ps[1..], p, r);
      var f := Fill(ps, p, r);
      assert f[0] == (if ps[0] == Hole(p) then Lit(r) else ps[0]);
      assert f[1..] == Fill(ps[1..], p, r);
    }
  }

  /** Filling keeps literals `$`-free when the filler is. */
  lemma {:induction false} FillWellFormed(ps: seq<Piece>, p: Placeholder, r: string)
    requires WellFormed(ps) && '$' !in r
    ensures WellFormed(Fill(ps, p, r))
    ensures forall i | 0 <= i < |ps| :: Fill(ps, p, r)[i] == (if ps[i] == Hole(p) then Lit(r) else ps[i])
    decreases |ps|
  {
    if |ps| > 0 {
      assert WellFormed(ps[1..]) by {
        forall i | 0 <= i < |ps[1..]| ensures ps[1..][i].Lit? ==> '$' !in ps[1..][i].text {
          assert ps[1..][i] == ps[i + 1];
        }
      }
      FillWellFormed(ps[1..], p, r);
    }
  }

  /** A template with no holes left renders without any `$`. */
  lemma {:induction false} RenderLiterals(ps: seq<Piece>)
    requires WellFormed(ps)
    requires forall i | 0 <= i < |ps| :: ps[i].Lit?
    ensures '$' !in Render(ps)
    decreases |ps|
  {
    if |ps| > 0 {
      assert WellFormed(ps[1..]) by {
        forall i | 0 <= i < |ps[1..]| ensures ps[1..][i].Lit? ==> '$' !in ps[1..][i].text {
          assert ps[1..][i] == ps[i + 1];
        }
      }
      RenderLiterals(ps[1..]);
    }
  }

  predicate IsDigits(s: string) {
    forall i | 0 <= i < |s| :: '0' <= s[i] <= '9'
  }

  /** The number a string of decimal digits denotes, most significant digit
      first. */
  function DecimalValue(s: string): nat
    requires IsDigits(s)
  {
    if |s| == 0 then 0 else 10 * DecimalValue(s[..|s| - 1]) + (s[|s| - 1] as int - '0' as int)
  }

  /** Decimal text of a number, as JavaScript's String(n) writes an integer:
      digits only, denoting n, with no leading zero. */
  function NatToString(n: nat): (s: string)
    ensures |s| > 0 && IsDigits(s) && DecimalValue(s) == n
    ensures n > 0 ==> s[0] != '0'
    ensures n == 0 ==> s == "0"
    decreases n
  {
    var d := [(n % 10) as char + '0'];
    if n < 10 then d
    else
      var s := NatToString(n / 10) + d;
      assert s[..|s| - 1] == NatToString(n / 10);
      s
  }

  /** Decimal text of an integer: a minus sign before the text of its
      magnitude when it is negative. */
  function IntToString(n: int): (s: string)
    ensures '$' !in s && |s| > 0
    ensures n >= 0 ==> IsDigits(s) && DecimalValue(s) == n && (n > 0 ==> s[0] != '0')
    ensures n < 0 ==> |s| >= 2 && s[0] == '-' && IsDigits(s[1..]) && DecimalValue(s[1..]) == -n && s[1] != '0'
  {
    if n < 0 then "-" + NatToString(-n) else NatToString(n)
  }

  /** The template with every placeholder filled. */
  function Filled(local: nat, typeName: string, op: string, base: int): seq<Piece> {
    Fill(Fill(Fill(Fill(ReducePieces, N, NatToString(local)), TYPE, typeName), OP, op), BASE, IntToString(base))
  }

  /** The four chained global replacements of `reductionKernel`. When the
      type name and the operator text hold no `$`, each value lands exactly
      where its placeholder stood and no `$` is left. */
  function Instantiate(local: nat, typeName: string, op: string, base: int): (src: string)
    ensures '$' !in typeName && '$' !in op ==>
      src == Render(Filled(local, typeName, op, base)) && '$' !in src
  {
    ChainedReplacementsFill(local, typeName, op, base);
    ReplaceAll(ReplaceAll(ReplaceAll(ReplaceAll(ReduceSource, "$N", NatToString(local)),
      "$TYPE", typeName), "$OP", op), "$BASE", IntToString(base))
  }

  /** Every literal piece of the template is free of `$`. */
  lemma ReducePiecesWellFormed()
    ensures WellFormed(ReducePieces)
  {
    LiteralsDollarFree();
    var ps := ReducePieces;
    forall i | 0 <= i < |ps| && ps[i].Lit? ensures '$' !in ps[i].text {
      assert ps[i].text in {KernelHead, BufferParam, ResultParam, ScratchDecl, LoadStep, HalvingLoop, ReadA, ReadB, Epilogue};
    }
  }

  /** The template's literal text is free of `$`. */
  lemma LiteralsDollarFree()
    ensures '$' !in KernelHead && '$' !in BufferParam && '$' !in ResultParam
    ensures '$' !in ScratchDecl && '$' !in LoadStep && '$' !in HalvingLoop
    ensures '$' !in ReadA && '$' !in ReadB && '$' !in Epilogue
  {
    HeaderDollarFree();
    LoadStepDollarFree();
    HalvingLoopDollarFree();
    OperandsDollarFree();
    EpilogueDollarFree();
  }

  /** The literal text of the kernel signature and the `scratch` declaration, one string chunk at a time. */
  lemma HeaderDollarFree()
    ensures '$' !in KernelHead && '$' !in BufferParam && '$' !in ResultParam && '$' !in ScratchDecl
  {
    NoDollar("__kernel void reduce(__global ");
    NoDollar("* buffer, __const int length, __gl");
    NoDollar("obal ");
    NoDollar("* result) {         local ");
    NoDollar(" scratch[");
  }

  /** The literal text of the load step, one string chunk at a time. */
  lemma LoadStepDollarFree()
    ensures '$' !in LoadStep
  {
    NoDollar("];         int global_index = get_");
    NoDollar("global_id(0);         int local_in");
    NoDollar("dex = get_local_id(0);         if ");
    NoDollar("(global_index < length)           ");
    NoDollar("  scratch[local_index] = buffer[gl");
    NoDollar("obal_index];         else         ");
    NoDollar("    scratch[local_index] = ");
  }

  /** The literal text of the halving loop header, one string chunk at a time. */
  lemma HalvingLoopDollarFree()
    ensures '$' !in HalvingLoop
  {
    NoDollar(";         barrier(CLK_LOCAL_MEM_FE");
    NoDollar("NCE);         for (int offset = 1;");
    NoDollar(" offset < get_local_size(0); offse");
    NoDollar("t <<= 1) {             int mask = ");
    NoDollar("(offset << 1) - 1;             if ");
    NoDollar("((local_index & mask) == 0) {     ");
    NoDollar("            ");
  }

  /** The literal text of the operand reads, one string chunk at a time. */
  lemma OperandsDollarFree()
    ensures '$' !in ReadA && '$' !in ReadB
  {
    NoDollar(" a = scratch[local_index];        ");
    NoDollar("         ");
    NoDollar(" b = scratch[local_index + offset]");
    NoDollar(";                 scratch[local_in");
    NoDollar("dex] = ");
  }

  /** The literal text of the write of the group's result, one string chunk at a time. */
  lemma EpilogueDollarFree()
    ensures '$' !in Epilogue
  {
    NoDollar(";             }             barrie");
    NoDollar("r(CLK_LOCAL_MEM_FENCE);         } ");
    NoDollar("        if (local_index == 0)     ");
    NoDollar("        result[get_group_id(0)] = ");
    NoDollar("scratch[0];     }");
  }

  /** A chunk of literal text checked character by character. */
  lemma NoDollar(c: string)
    requires forall i | 0 <= i < |c| :: c[i] != '$'
    ensures '$' !in c
  {
  }

  /** Only placeholders in `ps` occur as holes. */
  predicate HolesAmong(ps: seq<Piece>, ph: set<Placeholder>) {
    forall i | 0 <= i < |ps| :: ps[i].Hole? ==> ps[i].p in ph
  }

  /** Filling `p` removes it from the holes that remain. */
  lemma {:induction false} FillRemovesHole(ps: seq<Piece>, p: Placeholder, r: string, ph: set<Placeholder>)
    requires HolesAmong(ps, ph)
    ensures HolesAmong(Fill(ps, p, r), ph - {p})
    decreases |ps|
  {
    if |ps| > 0 {
      assert HolesAmong(ps[1..], ph) by {
        forall i | 0 <= i < |ps[1..]| ensures ps[1..][i].Hole? ==> ps[1..][i].p in ph {
          assert ps[1..][i] == ps[i + 1];
        }
      }
      FillRemovesHole(ps[1..], p, r, ph);
      var f := Fill(ps, p, r);
      assert f[1..] == Fill(ps[1..], p, r);
      forall i | 0 <= i < |f| ensures f[i].Hole? ==> f[i].p in ph - {p} {
        if i > 0 { assert f[i] == f[1..][i - 1]; }
      }
    }
  }

  /** Filling all four placeholders leaves literals only. */
  lemma FilledLiteralsOnly(ps: seq<Piece>, a: string, b: string, c: string, d: string)
    ensures forall i | 0 <= i < |ps| :: Fill(Fill(Fill(Fill(ps, N, a), TYPE, b), OP, c), BASE, d)[i].Lit?
  {
    var all := {N, TYPE, OP, BASE};
    forall i | 0 <= i < |ps| && ps[i].Hole? ensures ps[i].p in all {
      match ps[i].p
      case N =>
      case TYPE =>
      case OP =>
      case BASE =>
    }
    var p1 := Fill(ps, N, a);
    FillRemovesHole(ps, N, a, all);
    var p2 := Fill(p1, TYPE, b);
    FillRemovesHole(p1, TYPE, b, all - {N});
    var p3 := Fill(p2, OP, c);
    FillRemovesHole(p2, OP, c, all - {N} - {TYPE});
    FillRemovesHole(p3, BASE, d, all - {N} - {TYPE} - {OP});
    assert all - {N} - {TYPE} - {OP} - {BASE} == {};
  }

  /** The chained replacements on the template text fill its holes one
      placeholder at a time. */
  lemma ChainedReplacementsFill(local: nat, typeName: string, op: string, base: int)
    ensures '$' !in typeName && '$' !in op ==>
      var src := ReplaceAll(ReplaceAll(ReplaceAll(ReplaceAll(ReduceSource, "$N", NatToString(local)),
        "$TYPE", typeName), "$OP", op), "$BASE", IntToString(base));
      src == Render(Filled(local, typeName, op, base)) && '$' !in src
  {
    if '$' !in typeName && '$' !in op {
      var ls := NatToString(local);
      var bs := IntToString(base);
      assert '$' !in ls by {
        assert forall i | 0 <= i < |ls| :: ls[i] != '$';
      }
      ReducePiecesWellFormed();
      FilledLiteralsOnly(ReducePieces, ls, typeName, op, bs);
      var p1 := Fill(ReducePieces, N, ls);
      var p2 := Fill(p1, TYPE, typeName);
      var p3 := Fill(p2, OP, op);
      FillWellFormed(ReducePieces, N, ls);
      FillWellFormed(p1, TYPE, typeName);
      FillWellFormed(p2, OP, op);
      FillWellFormed(p3, BASE, bs);
      ReplaceAllRender(ReducePieces, N, ls);
      ReplaceAllRender(p1, TYPE, typeName);
      ReplaceAllRender(p2, OP, op);
      ReplaceAllRender(p3, BASE, bs);
      RenderLiterals(Filled(local, typeName, op, base));
    }
  }

  /** `type(t)`: the third test reads `... || Uint8Array`, and a constructor
      is always truthy, so every non-float kind is named `unsigned int` and
      the `int` branch is never reached. */
  function ClType(t: ArrayKind): (name: string)
    ensures t == Float64Array ==> name == "double"
    ensures t == Float32Array ==> name == "float"
    ensures !IsFloat(t) ==> name == "unsigned int"
    ensures name != "int"
  {
    var uint8ArrayIsTruthy := true;
    if t == Float64Array then "double"
    else if t == Float32Array then "float"
    else if t == Uint32Array || t == Uint16Array || uint8ArrayIsTruthy then "unsigned int"
    else "int"
  }

  /** Bytes per value of an OpenCL C scalar type (section 6.1.1 of the
      OpenCL 1.1 specification); `None` for a name that is not one. */
  function ClWidth(name: string): Option<nat> {
    if name == "char" || name == "unsigned char" then Some(1)
    else if name == "short" || name == "unsigned short" then Some(2)
    else if name == "int" || name == "unsigned int" || name == "float" then Some(4)
    else if name == "double" then Some(8)
    else None
  }

  /** The signed integer types of OpenCL C. */
  predicate SignedName(name: string) {
    name == "char" || name == "short" || name == "int"
  }

  predicate IsSignedKind(t: ArrayKind) {
    t == Int32Array || t == Int16Array || t == Int8Array
  }

  /** As written, the 8- and 16-bit kinds are named a 4-byte type, so the
      kernel's buffer elements are wider than the array's. */
  lemma ClTypeWidthMismatch(t: ArrayKind)
    ensures ClWidth(ClType(t)) != Some(Width(t)) <==> Width(t) < 4
  {
  }

  /** `type(t)` as evidently intended: each kind is named the OpenCL C type
      of its own width and signedness. */
  function ClTypeIntended(t: ArrayKind): (name: string)
    ensures t == Float64Array ==> name == "double"
    ensures t == Float32Array ==> name == "float"
    ensures ClWidth(name) == Some(Width(t))
    ensures !IsFloat(t) ==> (SignedName(name) <==> IsSignedKind(t))
  {
    match t
    case Float64Array => "double"
    case Float32Array => "float"
    case Uint32Array => "unsigned int"
    case Int32Array => "int"
    case Uint16Array => "unsigned short"
    case Int16Array => "short"
    case Uint8Array => "unsigned char"
    case Int8Array => "char"
  }

  /** The code names no kind with a signed type; the intended mapping names
      exactly the signed kinds so. The two agree only on the float kinds and
      `Uint32Array`. */
  lemma ClTypeDiffersOnSignedKinds(t: ArrayKind)
    ensures SignedName(ClType(t)) != SignedName(ClTypeIntended(t)) <==> IsSignedKind(t)
    ensures ClType(t) == ClTypeIntended(t) <==> t in {Float64Array, Float32Array, Uint32Array}
  {
  }
}

=== FILE: tree.dfy ===
/** One work-group of the reduction kernel, one barrier-separated step at a
    time: the load of `scratch` (with `$BASE` padding), then the halving
    steps for offset = 1, 2, 4, ... below the work-group size. Each step
    reads the scratch contents left by the previous barrier and updates the
    active slots together. */
module TreeReduce {
  import opened Common

  /** Bitwise AND of two non-negative integers, one bit at a time from the
      least significant. */
  function BitAnd(a: nat, b: nat): nat
    decreases a
  {
    if a == 0 || b == 0 then 0
    else 2 * BitAnd(a / 2, b / 2) + (if a % 2 == 1 && b % 2 == 1 then 1 else 0)
  }

  predicate IsPow2(n: nat)
    decreases n
  {
    n == 1 || (n >= 2 && n % 2 == 0 && IsPow2(n / 2))
  }

  /** The kernel's test `(local_index & ((offset << 1) - 1)) == 0`. */
  predicate Active(i: nat, offset: nat)
    requires offset >= 1
  {
    BitAnd(i, 2 * offset - 1) == 0
  }

  lemma MulLe(m: nat, a: nat, b: nat)
    requires a <= b
    ensures m * a <= m * b
  {
    assert m * b == m * a + m * (b - a);
  }

  lemma ModUnique(x: nat, d: nat, a: nat, c: nat)
    requires d > 0 && x == d * a + c && c < d
    ensures x % d == c && x / d == a
  {
    var q, r := x / d, x % d;
    assert d * q + r == d * a + c;
    if q > a {
      MulLe(d, 1, q - a);
      assert false;
    } else if q < a {
      MulLe(d, 1, a - q);
      assert false;
    }
  }

  lemma BitAndLowBit(i: nat, m1: nat, h: nat)
    requires i > 0 && h >= 1 && m1 / 2 == h - 1 && m1 % 2 == 1
    ensures BitAnd(i, m1) == 2 * BitAnd(i / 2, h - 1) + i % 2
  {
  }

  lemma HalfOfOdd(m: nat, m1: nat, h: nat)
    requires m >= 2 && m % 2 == 0 && m1 == m - 1 && h == m / 2
    ensures m1 / 2 == h - 1 && m1 % 2 == 1 && m == 2 * h
  {
  }

  lemma Recombine(i: nat, m: nat, h: nat, q: nat, b: nat, a: nat)
    requires m == 2 * h && i / 2 == h * q + b && b < h && a == 2 * b + i % 2
    ensures a < m && i == m * q + a
  {
    assert m * q == 2 * (h * q);
  }

  /** For a power of two m, masking with m - 1 leaves a value below m that
      differs from i by a multiple of m. */
  lemma {:induction false} MaskSplit(i: nat, m: nat) returns (q: nat)
    requires IsPow2(m)
    ensures BitAnd(i, m - 1) < m && i == m * q + BitAnd(i, m - 1)
    decreases m
  {
    if m == 1 {
      q := i;
    } else if i == 0 {
      q := 0;
    } else {
      var h := m / 2;
      HalfOfOdd(m, m - 1, h);
      q := MaskSplit(i / 2, h);
      BitAndLowBit(i, m - 1, h);
      Recombine(i, m, h, q, BitAnd(i / 2, h - 1), BitAnd(i, m - 1));
    }
  }

  /** For a power of two m, masking with m - 1 keeps the remainder modulo
      m; the kernel's mask test is divisibility by 2 * offset. */
  lemma MaskIsModulo(i: nat, m: nat)
    requires IsPow2(m)
    ensures BitAnd(i, m - 1) == i % m
  {
    var q := MaskSplit(i, m);
    ModUnique(i, m, q, BitAnd(i, m - 1));
  }

  lemma ActiveIsMultiple(i: nat, offset: nat)
    requires IsPow2(offset)
    ensures Active(i, offset) <==> i % (2 * offset) == 0
  {
    assert IsPow2(2 * offset);
    MaskIsModulo(i, 2 * offset);
  }

  lemma {:induction false} Pow2Below(o: nat, n: nat)
    requires IsPow2(o) && IsPow2(n) && o < n
    ensures 2 * o <= n && IsPow2(2 * o)
    decreases o
  {
    if o > 1 {
      Pow2Below(o / 2, n / 2);
    }
  }

  lemma {:induction false} Pow2Divides(o: nat, n: nat)
    requires IsPow2(o) && IsPow2(n) && o <= n
    ensures n % o == 0
    decreases o
  {
    if o > 1 {
      Pow2Divides(o / 2, n / 2);
      var c := (n / 2) / (o / 2);
      assert n / 2 == (o / 2) * c;
      assert n == o * c;
      ModUnique(n, o, c, 0);
    }
  }

  lemma MultipleGap(i: nat, n: nat, m: nat)
    requires m > 0 && i % m == 0 && n % m == 0 && i < n
    ensures i + m <= n
  {
    var a, b := i / m, n / m;
    assert i == m * a && n == m * b;
    assert a < b by {
      if b <= a {
        MulLe(m, b, a);
        assert false;
      }
    }
    MulLe(m, a + 1, b);
  }

  /** In a work-group of power-of-two size n, every active slot reads
      `local_index + offset` inside scratch. */
  lemma ActiveReadsInScratch(i: nat, offset: nat, n: nat)
    requires IsPow2(n) && IsPow2(offset) && offset < n && i < n
    requires Active(i, offset)
    ensures i + offset < n
  {
    ActiveIsMultiple(i, offset);
    Pow2Below(offset, n);
    Pow2Divides(2 * offset, n);
    MultipleGap(i, n, 2 * offset);
  }

  /** One barrier-separated step: every active slot combines its value with
      the one `offset` slots ahead. A read past the end of scratch stops
      the model. */
  function Step(s: seq<int>, offset: nat, op: (int, int) -> int): (r: Result<seq<int>>)
    requires offset >= 1
    ensures r.Success? <==> forall i | 0 <= i < |s| :: Active(i, offset) ==> i + offset < |s|
    ensures r.Success? ==> |r.value| == |s|
    ensures r.Success? ==> forall i | 0 <= i < |s| ::
      r.value[i] == if Active(i, offset) then op(s[i], s[i + offset]) else s[i]
  {
    if exists i | 0 <= i < |s| :: Active(i, offset) && i + offset >= |s| then Failure(ScratchPastEnd)
    else Success(seq(|s|, i requires 0 <= i < |s| => if Active(i, offset) then op(s[i], s[i + offset]) else s[i]))
  }

  /** The `for (offset = 1; offset < get_local_size(0); offset <<= 1)` loop. */
  function Steps(s: seq<int>, offset: nat, op: (int, int) -> int): (r: Result<seq<int>>)
    requires offset >= 1
    ensures r.Success? ==> |r.value| == |s|
    decreases |s| - offset
  {
    if offset >= |s| then Success(s)
    else
      var t :- Step(s, offset, op);
      Steps(t, 2 * offset, op)
  }

  /** The value work-item 0 writes to `result[group]`: scratch[0] after
      the loop. */
  function Tree(s: seq<int>, op: (int, int) -> int): (r: Result<int>)
    requires |s| > 0
    ensures Associative(op) && IsPow2(|s|) ==> r == Success(Fold1(s, op))
  {
    HalvingFolds(s, op);
    var t :- Steps(s, 1, op);
    Success(t[0])
  }

  /** The left-to-right fold of a non-empty sequence. */
  function Fold1(s: seq<int>, op: (int, int) -> int): int
    requires |s| > 0
    decreases |s|
  {
    if |s| == 1 then s[0] else op(Fold1(s[..|s| - 1], op), s[|s| - 1])
  }

  ghost predicate Associative(op: (int, int) -> int) {
    forall a, b, c :: op(op(a, b), c) == op(a, op(b, c))
  }

  ghost predicate IsIdentity(e: int, op: (int, int) -> int) {
    forall a :: op(e, a) == a && op(a, e) == a
  }

  lemma {:induction false} Fold1Concat(a: seq<int>, b: seq<int>, op: (int, int) -> int)
    requires Associative(op) && |a| > 0 && |b| > 0
    ensures Fold1(a + b, op) == op(Fold1(a, op), Fold1(b, op))
    decreases |b|
  {
    var ab := a + b;
    if |b| == 1 {
      assert ab[..|ab| - 1] == a;
    } else {
      var b' := b[..|b| - 1];
      assert ab[..|ab| - 1] == a + b';
      assert ab[|ab| - 1] == b[|b| - 1];
      Fold1Concat(a, b', op);
      assert Fold1(b, op) == op(Fold1(b', op), b[|b| - 1]);
    }
  }

  /** Padding with an identity does not change the fold. */
  lemma {:induction false} Fold1Padded(a: seq<int>, k: nat, e: int, op: (int, int) -> int)
    requires IsIdentity(e, op) && |a| > 0
    ensures Fold1(a + seq(k, _ => e), op) == Fold1(a, op)
    decreases k
  {
    var s := a + seq(k, _ => e);
    if k == 0 {
      assert s == a;
    } else {
      assert s[..|s| - 1] == a + seq(k - 1, _ => e);
      Fold1Padded(a, k - 1, e, op);
    }
  }

  lemma RunStarts(i: nat, o: nat)
    requires o > 0 && i % (2 * o) == 0
    ensures i % o == 0 && (i + o) % o == 0
  {
    var k := i / (2 * o);
    ModUnique(i, 2 * o, k, 0);
    assert i == o * (2 * k);
    ModUnique(i, o, 2 * k, 0);
    ModUnique(i + o, o, 2 * k + 1, 0);
  }

  lemma FoldHalves(w: seq<int>, o: nat, op: (int, int) -> int)
    requires Associative(op) && o > 0 && |w| == 2 * o
    ensures Fold1(w, op) == op(Fold1(w[..o], op), Fold1(w[o..], op))
  {
    assert w == w[..o] + w[o..];
    Fold1Concat(w[..o], w[o..], op);
  }

  /** Every slot at a multiple of o holds the fold of the o values of s0
      from it on. */
  ghost predicate RunsFolded(s0: seq<int>, cur: seq<int>, o: nat, op: (int, int) -> int)
    requires o > 0 && |cur| == |s0|
  {
    forall i | 0 <= i && i + o <= |s0| && i % o == 0 :: cur[i] == Fold1(s0[i..i + o], op)
  }

  /** Slot i at a multiple of 2 * o combines the folds of the two o-wide
      runs from i and from i + o. */
  lemma PairFold(s0: seq<int>, cur: seq<int>, o: nat, i: nat, op: (int, int) -> int)
    requires Associative(op) && o > 0 && |cur| == |s0| && i + 2 * o <= |s0|
    requires cur[i] == Fold1(s0[i..i + o], op) && cur[i + o] == Fold1(s0[i + o..i + 2 * o], op)
    ensures op(cur[i], cur[i + o]) == Fold1(s0[i..i + 2 * o], op)
  {
    var w := s0[i..i + 2 * o];
    assert w[..o] == s0[i..i + o] && w[o..] == s0[i + o..i + 2 * o];
    FoldHalves(w, o, op);
  }

  lemma DoubleAt(s0: seq<int>, cur: seq<int>, o: nat, i: nat, op: (int, int) -> int)
    requires Associative(op) && IsPow2(o) && |cur| == |s0|
    requires RunsFolded(s0, cur, o, op)
    requires i + 2 * o <= |s0| && i % (2 * o) == 0
    ensures Active(i, o) && op(cur[i], cur[i + o]) == Fold1(s0[i..i + 2 * o], op)
  {
    RunStarts(i, o);
    ActiveIsMultiple(i, o);
    assert cur[i] == Fold1(s0[i..i + o], op);
    assert cur[i + o] == Fold1(s0[i + o..i + o + o], op);
    PairFold(s0, cur, o, i, op);
  }

  /** One step at offset o below a power-of-two size stays inside scratch
      and doubles the runs every multiple of 2 * o holds the fold of. */
  lemma StepDoubles(s0: seq<int>, cur: seq<int>, o: nat, op: (int, int) -> int)
    requires Associative(op) && IsPow2(|s0|) && IsPow2(o) && o < |s0| && |cur| == |s0|
    requires RunsFolded(s0, cur, o, op)
    ensures Step(cur, o, op).Success?
    ensures |Step(cur, o, op).value| == |s0| && RunsFolded(s0, Step(cur, o, op).value, 2 * o, op)
  {
    var n := |s0|;
    forall i | 0 <= i < n && Active(i, o) ensures i + o < n {
      ActiveReadsInScratch(i, o, n);
    }
    var next := Step(cur, o, op).value;
    forall i | 0 <= i && i + 2 * o <= n && i % (2 * o) == 0
      ensures next[i] == Fold1(s0[i..i + 2 * o], op)
    {
      DoubleAt(s0, cur, o, i, op);
    }
  }

  /** The halving steps from offset o on: if every slot at a multiple of o
      holds the fold of the o values from it, slot 0 ends with the fold of
      all of them. */
  lemma {:induction false} StepsFold(s0: seq<int>, cur: seq<int>, o: nat, op: (int, int) -> int)
    requires Associative(op) && IsPow2(|s0|) && IsPow2(o) && o <= |s0| && |cur| == |s0|
    requires RunsFolded(s0, cur, o, op)
    ensures Steps(cur, o, op).Success? && Steps(cur, o, op).value[0] == Fold1(s0, op)
    decreases |s0| - o
  {
    var n := |s0|;
    if o >= n {
      assert 0 % o == 0;
      assert cur[0] == Fold1(s0[0..o], op);
      assert s0[0..o] == s0;
      assert Steps(cur, o, op) == Success(cur);
    } else {
      Pow2Below(o, n);
      StepDoubles(s0, cur, o, op);
      var next := Step(cur, o, op).value;
      assert Steps(cur, o, op) == Steps(next, 2 * o, op);
      StepsFold(s0, next, 2 * o, op);
    }
  }

  /** For a power-of-two work-group and an associative operator, the
      halving steps from offset 1 leave the left-to-right fold of the whole
      scratch array in slot 0. */
  lemma HalvingFolds(s: seq<int>, op: (int, int) -> int)
    requires |s| > 0
    ensures Associative(op) && IsPow2(|s|) ==> Steps(s, 1, op).Success? && Steps(s, 1, op).value[0] == Fold1(s, op)
  {
    if Associative(op) && IsPow2(|s|) {
      forall i | 0 <= i && i + 1 <= |s| && i % 1 == 0 ensures s[i] == Fold1(s[i..i + 1], op) {
      }
      StepsFold(s, s, 1, op);
    }
  }

  /** A work-group of six: the offset-2 step makes slot 4 read slot 6. */
  lemma SixWideReadsPastScratch(s: seq<int>, op: (int, int) -> int)
    requires |s| == 6
    ensures Tree(s, op) == Failure(ScratchPastEnd)
  {
    forall i | 0 <= i < 6 && Active(i, 1) ensures i + 1 < 6 {
      ActiveIsMultiple(i, 1);
    }
    var t := Step(s, 1, op).value;
    assert Steps(s, 1, op) == Steps(t, 2, op);
    ActiveIsMultiple(4, 2);
    assert Active(4, 2) && 4 + 2 >= |t|;
    assert Step(t, 2, op) == Failure(ScratchPastEnd);
    assert Steps(t, 2, op) == Failure(ScratchPastEnd);
  }

  /** The load step of work-group g: slot i gets `buffer[g*n + i]` when that
      index is below `length`, else the base value. A load past the end of
      the buffer stops the model. */
  function Load(cells: seq<int>, g: nat, n: nat, length: nat, base: int): (r: Result<seq<int>>)
    ensures r.Success? <==> (g * n < length ==> Min(length, g * n + n) <= |cells|)
    ensures r.Success? ==> |r.value| == n && forall i | 0 <= i < n ::
      r.value[i] == if g * n + i < length then cells[g * n + i] else base
  {
    var hi := Min(length, g * n + n);
    if g * n < length && hi > |cells| then Failure(ReadPastEnd)
    else Success(seq(n, i requires 0 <= i < n => if g * n + i < length then cells[g * n + i] else base))
  }

  /** What work-group g of a launch writes to `result[g]`. */
  function GroupValue(cells: seq<int>, g: nat, n: nat, length: nat, base: int, op: (int, int) -> int): (r: Result<int>)
    requires n > 0
  {
    var s :- Load(cells, g, n, length, base);
    Tree(s, op)
  }

  /** The elements work-group g covers below `length`. */
  function Chunk(cells: seq<int>, g: nat, n: nat, length: nat): seq<int>
    requires g * n <= Min(length, g * n + n) <= |cells|
  {
    cells[g * n..Min(length, g * n + n)]
  }

  /** With a power-of-two work-group and an associative operator, a group
      that starts below `length` writes the fold of its in-range elements,
      provided the base is an identity or the group is full. */
  lemma GroupIsFold(cells: seq<int>, g: nat, n: nat, length: nat, base: int, op: (int, int) -> int)
    requires IsPow2(n) && Associative(op)
    requires g * n < length <= |cells|
    requires IsIdentity(base, op) || g * n + n <= length
    ensures GroupValue(cells, g, n, length, base, op) == Success(Fold1(Chunk(cells, g, n, length), op))
  {
    var c := Chunk(cells, g, n, length);
    if g * n + n <= length {
      LoadFull(cells, g, n, length, base);
    } else {
      var k := g * n + n - length;
      LoadPadded(cells, g, n, length, base);
      Fold1Padded(c, k, base, op);
    }
  }

  /** A group that lies wholly below `length` loads its elements as they
      are. */
  lemma LoadFull(cells: seq<int>, g: nat, n: nat, length: nat, base: int)
    requires g * n + n <= length <= |cells|
    ensures Load(cells, g, n, length, base) == Success(Chunk(cells, g, n, length))
  {
    LoadShape(cells, g * n, n, length, base);
    assert Min(length, g * n + n) == g * n + n;
    assert seq(g * n + n - Min(length, g * n + n), _ => base) == [];
    assert Chunk(cells, g, n, length) + [] == Chunk(cells, g, n, length);
  }

  /** The group that straddles `length` loads its elements followed by
      copies of the base. */
  lemma LoadPadded(cells: seq<int>, g: nat, n: nat, length: nat, base: int)
    requires g * n < length <= |cells| && length < g * n + n
    ensures Load(cells, g, n, length, base) == Success(Chunk(cells, g, n, length) + seq(g * n + n - length, _ => base))
  {
    LoadShape(cells, g * n, n, length, base);
  }

  /** The slots loaded from `lo` on are the in-range elements, then the
      base. */
  lemma LoadShape(cells: seq<int>, lo: nat, n: nat, length: nat, base: int)
    requires lo <= length <= |cells|
    ensures seq(n, i requires 0 <= i < n => if lo + i < length then cells[lo + i] else base)
         == cells[lo..Min(length, lo + n)] + seq(lo + n - Min(length, lo + n), _ => base)
  {
    var a := seq(n, i requires 0 <= i < n => if lo + i < length then cells[lo + i] else base);
    var b := cells[lo..Min(length, lo + n)] + seq(lo + n - Min(length, lo + n), _ => base);
    assert |a| == |b|;
    forall i | 0 <= i < n ensures a[i] == b[i] {
      if lo + i < length {
        assert b[i] == cells[lo..Min(length, lo + n)][i];
      }
    }
  }
}

=== FILE: types.dfy ===
/** Host-side data: typed arrays, their byte sizes in the two copies of the
    context object, and the tagged scalar wrappers with their WebCL types. */
module Types {
  import opened Common

  /** The typed-array constructors a host buffer can be built from. */
  datatype ArrayKind =
    | Float64Array | Float32Array
    | Uint32Array | Int32Array
    | Uint16Array | Int16Array
    | Uint8Array | Int8Array

  predicate IsFloat(k: ArrayKind) {
    k == Float64Array || k == Float32Array
  }

  /** Bytes per element of each kind of typed array. */
  function Width(k: ArrayKind): nat {
    match k
    case Float64Array => 8
    case Float32Array | Uint32Array | Int32Array => 4
    case Uint16Array | Int16Array => 2
    case Uint8Array | Int8Array => 1
  }

  /** A typed array: its constructor and its elements. Element values are
      modelled as integers; conversion on store is not modelled. */
  datatype HostArray = HostArray(kind: ArrayKind, cells: seq<int>)

  /** `new kind(n)`: a fresh array of n zeros. */
  function Zeros(kind: ArrayKind, n: nat): HostArray {
    HostArray(kind, seq(n, _ => 0))
  }

  /** The two near-identical copies of the context object. */
  datatype Copy = KernelContextCopy | TmclCopy

  /** `bytes(data)`: an instanceof chain over the typed arrays. The older
      copy has no Float64Array or Float32Array branch and falls off its
      end, giving `undefined`. */
  function Bytes(copy: Copy, a: HostArray): (r: Option<nat>)
    ensures copy == KernelContextCopy ==> r == Some(|a.cells| * Width(a.kind))
    ensures copy == TmclCopy ==> (r.Some? <==> !IsFloat(a.kind))
    ensures r.Some? ==> r.value == |a.cells| * Width(a.kind)
  {
    var k := a.kind;
    var len := |a.cells|;
    match copy
    case KernelContextCopy =>
      if k == Float64Array then Some(len * 8)
      else if k == Uint32Array || k == Int32Array || k == Float32Array then Some(len * 4)
      else if k == Uint16Array || k == Int16Array then Some(len * 2)
      else Some(len)  // Uint8Array or Int8Array
    case TmclCopy =>
      if k == Uint32Array || k == Int32Array then Some(len * 4)
      else if k == Uint16Array || k == Int16Array then Some(len * 2)
      else if k == Uint8Array || k == Int8Array then Some(len)
      else None
  }

  /** The two copies agree on every integer kind; they part only on floats. */
  lemma BytesCopiesAgree(a: HostArray)
    ensures !IsFloat(a.kind) ==> Bytes(TmclCopy, a) == Bytes(KernelContextCopy, a)
    ensures IsFloat(a.kind) ==> Bytes(TmclCopy, a).None? && Bytes(KernelContextCopy, a).Some?
  {
  }

  /** WebCL's argument type constants for scalar kernel arguments. */
  datatype WebClType = CHAR | FLOAT | INT | SHORT | BYTE | UINT | USHORT | UBYTE

  /** A tagged scalar: `valueOf()` yields `n`, `type` carries the tag. */
  datatype Number = Number(n: int, tag: string) {
    function ValueOf(): int {
      n
    }
  }

  /** The eight scalar wrapper functions `Char` ... `Uint8`. */
  datatype Scalar = Char | Float | Int32 | Int16 | Int8 | Uint32 | Uint16 | Uint8 {

    /** The tag each wrapper writes: its own name. */
    function Name(): string {
      match this
      case Char => "Char"
      case Float => "Float"
      case Int32 => "Int32"
      case Int16 => "Int16"
      case Int8 => "Int8"
      case Uint32 => "Uint32"
      case Uint16 => "Uint16"
      case Uint8 => "Uint8"
    }
  }

  /** Calling wrapper `s` on `n`. */
  function Wrap(s: Scalar, n: int): (x: Number)
    ensures x.ValueOf() == n && x.tag == s.Name()
    ensures ScalarTable(x.tag).Some?
  {
    Number(n, s.Name())
  }

  /** The object literal inside `webClType`, looked up by tag. */
  function ScalarTable(tag: string): (r: Option<WebClType>) {
    if tag == "Char" then Some(CHAR)
    else if tag == "Float" then Some(FLOAT)
    else if tag == "Int32" then Some(INT)
    else if tag == "Int16" then Some(SHORT)
    else if tag == "Int8" then Some(BYTE)
    else if tag == "Uint32" then Some(UINT)
    else if tag == "Uint16" then Some(USHORT)
    else if tag == "Uint8" then Some(UBYTE)
    else None
  }

  /** Exactly the eight wrapper names are keys of the table. */
  lemma TableKeysAreWrapperNames(tag: string)
    ensures ScalarTable(tag).Some? <==> exists w: Scalar :: w.Name() == tag
  {
    if tag == "Char" { assert Char.Name() == tag; }
    else if tag == "Float" { assert Float.Name() == tag; }
    else if tag == "Int32" { assert Int32.Name() == tag; }
    else if tag == "Int16" { assert Int16.Name() == tag; }
    else if tag == "Int8" { assert Int8.Name() == tag; }
    else if tag == "Uint32" { assert Uint32.Name() == tag; }
    else if tag == "Uint16" { assert Uint16.Name() == tag; }
    else if tag == "Uint8" { assert Uint8.Name() == tag; }
  }

  /** Different keys map to different WebCL types. */
  lemma TableInjective(s: Scalar, s': Scalar)
    ensures ScalarTable(s.Name()) == ScalarTable(s'.Name()) ==> s == s'
  {
  }

  /** The wrapper names are pairwise distinct. */
  lemma WrapperNamesDistinct(s: Scalar, s': Scalar)
    ensures s.Name() == s'.Name() ==> s == s'
  {
  }
}
